=== FILE: README.md ===
# Lightning Issues: a Dafny model of the issue editor, the app shell and the reply parser

Lightning Issues is a browser front end. It takes a public GitHub repository
URL and asks a hosted language model for issue suggestions. The suggestions
appear as editable Markdown cards, and each card can open a pre-filled
"New Issue" page. Past runs are kept in a local history list. This project
models the deterministic logic inside that glue and proves properties of it:

- **EditBuffer** (`components/IssueCard.tsx`): the card's body editor. It
  keeps a linear undo/redo history of body snapshots, an index into it and a
  50-entry cap. Typed edits are checkpointed by a debounce timer. Toolbar
  insertions splice markers around the selection and checkpoint at once.
  Undo and redo move the index. Cancel, or a new suggestion arriving, resets
  the history.
- **IssueCard** (`components/IssueCard.tsx`): the category-to-label table
  with its `triage` fallback, the "Create Issue" link, the emoji search and
  the edit/save/cancel modes.
- **AppShell** (`App.tsx`): the `{isLoading, error, data}` request state
  machine driven by "analyze". It also covers the newest-first history list
  (add, delete by id, confirmed clear, load), the tab switch and the
  page/path routing.
- **GeminiService** (`services/geminiService.ts`): `parseRepoUrl`, the
  two-perspective combination, extraction of a JSON array from the model's
  free-form reply with code-fence cleanup, and the mapping of caught errors
  to user messages.
- **Types** (`types.ts`), and **Strings**, which holds the JavaScript string
  primitives the code relies on (`trim`, `split`, `filter(Boolean)`,
  `includes`, global literal `replace`, `toLowerCase`). It also holds the
  first and last position of a character, which is how the model computes the
  greedy match of `\[[\s\S]*\]` (first `[` through last `]`).

Everything is an immutable datatype and a pure function. Collaborators that
cannot be modelled are inputs:

- the `URL` constructor is an `Option<UrlParts>` (hostname, pathname);
- the model call is a `Reply`, either the reply text or the rejection message;
- `JSON.parse` is a function `string -> Option<seq<IssueSuggestion>>`;
- `Math.random` is a real in [0, 1);
- `Date.now` gives the `id` and `timestamp` inputs;
- the selection in the text area is an `Option<Selection>`, where `None`
  means the editor element is absent.

The debounce timer is modelled as data, not as time. `Type` arms the timer
by storing the typed text in `pending`, and `Commit` is the timer firing. In
the source, undo, redo, insertion, cancel and the reset effect never clear
the timer, so in the model they leave `pending` as it is.

Behaviour worth knowing, as the code does it:

- The timer callback truncates the history with the `historyIndex` captured
  when the keystroke happened (`components/IssueCard.tsx:131`). It then
  advances the index from the fresh state value (`components/IssueCard.tsx:137`).
  The model uses the fresh index for both. `EditBuffer.CommitIndexIsLast`
  proves that the clamped index `min(prev + 1, 49)` is then exactly the last
  position of the capped history.
- Undo while a typed commit is pending does not cancel the commit. When the
  timer fires, the typed text becomes the newest snapshot while the body
  still shows the undone text. This is why `EditBuffer.Synced` (the body is
  the snapshot at the index, with nothing pending) is guaranteed by `Undo`
  and `Redo` only when nothing is pending.
- The success handler of "analyze" adds its entry with the `history` list
  captured when the button was pressed (`App.tsx:68`, `App.tsx:103`). A clear
  (`App.tsx:282`) or a deletion (`App.tsx:315`) made while the request is
  loading is therefore undone when it succeeds: the dropped entries reappear
  behind the new one. `AppShell.CompleteAnalyze` takes that captured list as
  an input. `AppShell.ClearWhileLoadingIsUndone` and
  `AppShell.DeleteWhileLoadingIsUndone` prove the effect.
- A new issue category is kept as the raw string from the reply, because
  parsed JSON is not checked against the enumeration.

## Model

| member | source | states |
|---|---|---|
| Strings.Trim | services/geminiService.ts:123 | The result is the input with only whitespace removed at both ends, and it neither starts nor ends with whitespace. |
| Strings.TrimKeepsTrimmed | services/geminiService.ts:123 | Text that neither starts nor ends with whitespace is its own trim. |
| Strings.JoinSplit | services/geminiService.ts:10 | Joining the pieces of `split('/')` with `/` gives back the path. |
| Strings.SplitJoin | services/geminiService.ts:10 | Splitting a join of separator-free pieces gives back the same pieces. |
| Strings.SplitConcat | services/geminiService.ts:10 | Splitting `a/b` gives the pieces of `a` followed by the pieces of `b`. |
| Strings.Split | services/geminiService.ts:10 | `split('/')` always gives at least one piece, and no piece contains the separator. |
| Strings.NonEmpty | services/geminiService.ts:10 | `filter(Boolean)` keeps exactly the non-empty pieces and never adds any. |
| Strings.Contains | services/geminiService.ts:150 | `includes`: the pattern occurs at some position of the text, so it fits in the text and its first character appears there. It is the `400` test here and the emoji search test at components/IssueCard.tsx:285-286. |
| Strings.NonEmptyConcat | services/geminiService.ts:10 | `filter(Boolean)` keeps order: filtering a concatenation concatenates the filtered parts. |
| Strings.RemoveAll | services/geminiService.ts:139 | A global literal `replace` with the empty string never lengthens the text. |
| Strings.RemoveAllKeepsPlainPrefix | services/geminiService.ts:139 | Text before the first possible start of the pattern is kept as it is, and removal continues on the rest. |
| Strings.RemoveAllAroundOccurrence | services/geminiService.ts:139 | An occurrence is cut out and the text in front of it is kept, followed by the removal applied to the text after it. |
| Strings.RemoveAllAbsent | services/geminiService.ts:139 | A global literal `replace` with no occurrence leaves the text unchanged. |
| Strings.RemoveFencesLeavesNone | services/geminiService.ts:139 | One global removal of three backticks leaves no three backticks, even where removals join backticks from both sides. |
| Strings.RemoveFirst | App.tsx:27 | `replace('/', '')` leaves text without `/` unchanged. Otherwise it removes exactly the first `/` and keeps the text on both sides of it. |
| Strings.LowerChar | components/IssueCard.tsx:284-287 | An ASCII capital becomes the matching small letter, any other character is kept, and no capital remains. |
| Strings.Lower | components/IssueCard.tsx:284-287 | `toLowerCase` keeps the length, lower-cases each character in place, and leaves no ASCII capital. |
| Types.ParseIssueType | types.ts:1-12 | A recognised category string is exactly the name of the category it yields. |
| Types.ParseIssueTypeName | types.ts:1-12 | Every one of the ten categories is recognised from its own name. |
| GeminiService.Segments | services/geminiService.ts:10 | Every path segment is non-empty and contains no `/`. |
| GeminiService.ParseRepoUrl | services/geminiService.ts:6-16 | Returns a repository exactly when the URL parsed, the host is `github.com` and the path has at least two non-empty segments; owner and name are the first two, non-empty and without `/`. |
| GeminiService.SegmentsConcat | services/geminiService.ts:10 | The segments of `a/b` are those of `a` followed by those of `b`. |
| GeminiService.RepeatedSlashesIgnored | services/geminiService.ts:10 | A doubled slash gives the same segments as a single one. |
| GeminiService.CanonicalSegments | services/geminiService.ts:10 | The path `/<owner>/<name>`, followed by nothing or by a further `/...`, has at least two segments, and the first two are the owner and the name. |
| GeminiService.ParseCanonicalUrl | services/geminiService.ts:6-16 | `https://github.com/<owner>/<name>`, with or without a further `/...` path, parses to that owner and name. |
| GeminiService.ExtraSegmentsIgnored | services/geminiService.ts:10-12 | Segments after the second do not change the parsed repository. |
| GeminiService.PerspectiveIndex | services/geminiService.ts:56-57 | `floor(random * 10)` is an index into the ten perspectives. |
| GeminiService.CombinePerspectives | services/geminiService.ts:58 | The combination equals the first pick exactly when the two picks are equal; otherwise it is the first pick, ` AND `, then the second. |
| GeminiService.ChooseLens | services/geminiService.ts:55-58 | The lens is the combination of two perspectives from the list. |
| GeminiService.ExtractJsonArray | services/geminiService.ts:123-136 | If a `[` has a `]` after it, the result runs from the first `[` through the last `]`. Otherwise the text passes unchanged when it starts with `[` and fails with the non-JSON error when it does not. |
| GeminiService.ExtractSurroundedArray | services/geminiService.ts:126-128 | An array with no `[` in the prose before it and no `]` in the prose after it is extracted exactly, whatever that prose is. |
| GeminiService.ExtractBare | services/geminiService.ts:126-128 | A text that is just `[...]` is extracted whole. |
| GeminiService.ExtractFenced | services/geminiService.ts:123-128 | A trimmed reply that wraps an array in a `` ```json `` code block yields exactly that array. |
| GeminiService.CleanFences | services/geminiService.ts:138-139 | No three-backtick fence remains after the two global removals. |
| GeminiService.CleanFencesKeepsFenceFree | services/geminiService.ts:139 | Text without fences passes the cleanup unchanged. |
| GeminiService.CleanFencesKeepsPlainPrefix | services/geminiService.ts:139 | Text before the first backtick survives the cleanup unchanged, in front of the cleaned rest. |
| GeminiService.CleanFencesDropsTaggedOpening | services/geminiService.ts:139 | A leading `` ```json `` fence is removed whole, tag included. |
| GeminiService.CleanFencesUnwrapsBlock | services/geminiService.ts:139 | A `` ```json ... ``` `` block whose content has no backtick is unwrapped to exactly that content. |
| GeminiService.MapError | services/geminiService.ts:148-153 | A message containing `400` becomes the fixed access message, an empty message becomes the generic failure, and any other message passes unchanged. |
| GeminiService.FixedMessagesWithout400 | services/geminiService.ts:119-153 | None of the service's fixed messages contains `400`. |
| GeminiService.MapErrorFixedPoints | services/geminiService.ts:148-153 | The service's own errors reach the caller unchanged, and mapping twice is the same as mapping once. |
| GeminiService.ReadSuggestions | services/geminiService.ts:117-146 | An absent or empty reply fails with the no-data error. Every failure is one of the three fixed messages. The non-JSON error comes back exactly when no array can be extracted from the trimmed reply. A success is what the JSON parser made of a fence-free string. |
| GeminiService.ReadsExtracted | services/geminiService.ts:138-146 | Once the extracted span holds no fence, the parser sees it unchanged: its list comes back when it parses, and the parse error when it does not. |
| GeminiService.ReadsBareArray | services/geminiService.ts:117-146 | A reply that is a bare `[...]` without fences reaches the parser unchanged: its list comes back when it parses, and the parse error when it does not. |
| GeminiService.ReadsFencedArray | services/geminiService.ts:117-146 | A reply that wraps an array in a `` ```json `` code block reaches the parser as the bare array, without the fences: its list comes back when it parses, and the parse error when it does not. |
| GeminiService.GenerateIssueSuggestions | services/geminiService.ts:18-155 | An unparseable URL fails with "Invalid GitHub URL" before the model is used. Rejections go through the error mapping. No returned error is empty or contains `400`. |
| GeminiService.InvalidUrlErrorExactly | services/geminiService.ts:23-26 | When the model answered, "Invalid GitHub URL" comes back exactly when the URL does not parse. |
| GeminiService.InvalidUrlMakesNoRequest | services/geminiService.ts:23-26 | With an unparseable URL, the outcome does not depend on the model's reply. |
| EditBuffer.Open | components/IssueCard.tsx:98-104 | A new card shows the suggestion's title and body, with one snapshot, nothing to undo or redo, and the invariant holding. |
| EditBuffer.Reset | components/IssueCard.tsx:114-119 | Title and body return to the suggestion's, the history is just that body, the index is 0, and undo and redo do nothing. A pending commit is kept. |
| EditBuffer.Undo | components/IssueCard.tsx:145-151 | At index 0 nothing changes. Otherwise the index drops by one, the body becomes that snapshot, redo becomes available, and the history is unchanged. |
| EditBuffer.Redo | components/IssueCard.tsx:153-159 | At the last snapshot nothing changes. Otherwise the index rises by one, the body becomes that snapshot, undo becomes available, and the history is unchanged. |
| EditBuffer.Type | components/IssueCard.tsx:122-126 | A keystroke changes the body at once and arms the timer with that text. History and index are unchanged. |
| EditBuffer.EditTitle | components/IssueCard.tsx:323 | Title edits stay outside the undo history: undo and redo act on the body exactly as before. |
| EditBuffer.Checkpoint | components/IssueCard.tsx:129-136 | The new history keeps the last snapshots up to the index, then the new text, and is `min(index + 2, 50)` long. |
| EditBuffer.CommitIndex | components/IssueCard.tsx:137 | `Math.min(prev + 1, 49)`: the new index is at most one past the old and at most 49, and equals one of the two. |
| EditBuffer.CommitIndexIsLast | components/IssueCard.tsx:137 | For a valid old index, `min(prev + 1, 49)` equals the new history length minus one, the rule `pushToHistory` uses. |
| EditBuffer.Commit | components/IssueCard.tsx:129-138 | When the timer fires, the armed text becomes the newest snapshot and the redo future is gone. The cap holds, the previous snapshot is one undo away, the new index is `min(old + 1, 49)`, and the body is unchanged. With nothing armed, nothing changes. |
| EditBuffer.CommitKeepsRecent | components/IssueCard.tsx:129-136 | The snapshots kept before the new one are the most recent ones up to the old index, in order. |
| EditBuffer.Splice | components/IssueCard.tsx:269-272 | The new text is the old prefix, the opening marker, the selected text, the closing marker and the old suffix, so its length grows by the two markers. |
| EditBuffer.SpliceUnwrap | components/IssueCard.tsx:269-272 | Cutting the markers back out of the new text gives the original body. |
| EditBuffer.PushToHistory | components/IssueCard.tsx:258-263 | As written: the history keeps entries up to the index, appends the new text, and the index is the new last position. Nothing is evicted. |
| EditBuffer.PushToHistoryExceedsCap | components/IssueCard.tsx:258-263 | Pushing onto a history of 50 entries at its last index leaves 51 entries. |
| EditBuffer.CheckpointAgreesWithPush | components/IssueCard.tsx:258-263 | Below the cap, the capped rule and `pushToHistory` give the same history and index. |
| EditBuffer.Insert | components/IssueCard.tsx:265-282 | Without an editor element nothing happens. Otherwise the body becomes the splice of the markers around the selection, the selection moves past the opening marker, and the new body is committed at once. Redo is then unavailable, undo is available, the new index is `min(old + 1, 49)`, and the body is the current snapshot. The snapshots kept before it are the most recent ones up to the old index, in order. The history stays within the cap; this is the corrected rule listed under Findings, since the source's `pushToHistory` can leave 51. The title and any pending typed commit are kept. |
| EditBuffer.InsertThenUndo | components/IssueCard.tsx:265-282 | After a toolbar action, the originally selected text sits at the reported selection. The snapshot before the new one is the one the index pointed at, so when the body was that snapshot, one undo brings it back. |
| EditBuffer.UndoThenRedo | components/IssueCard.tsx:145-159 | Redo after undo returns to the same snapshot and history. |
| EditBuffer.RedoThenUndo | components/IssueCard.tsx:145-159 | Undo after redo returns to the same snapshot and history. |
| EditBuffer.TypeAll | components/IssueCard.tsx:122-126 | A burst of keystrokes leaves the history and the index unchanged. |
| EditBuffer.TypeAllKeepsLast | components/IssueCard.tsx:122-139 | A burst of keystrokes arms the timer with its last text only, so it is checkpointed as one snapshot. |
| EditBuffer.BurstThenUndo | components/IssueCard.tsx:122-151 | After typing a burst, letting the timer fire and pressing undo once, the body is the one from before the burst. Redo then brings back the burst's last text. |
| EditBuffer.Edit | components/IssueCard.tsx:122-138 | A typed edit followed by its commit leaves the body equal to the current snapshot, with nothing pending. |
| EditBuffer.EditAll | components/IssueCard.tsx:122-138 | A series of committed edits keeps the index on a snapshot. |
| EditBuffer.UndoTimes | components/IssueCard.tsx:145-151 | Repeated undo keeps the index on a snapshot. |
| EditBuffer.EditAllAppends | components/IssueCard.tsx:129-137 | From the last snapshot and below the cap, each committed edit appends exactly its text to the history. |
| EditBuffer.UndoTimesWalksBack | components/IssueCard.tsx:145-151 | `n` undos from index `i` land on snapshot `i - n`, with the history unchanged. |
| EditBuffer.EditsThenUndosRestore | components/IssueCard.tsx:103-151 | After `N` edits to a fresh card (fewer than 50), the history is the original body followed by the edits, and `N` undos give the original body back. |
| EditBuffer.EditsThenUndo | components/IssueCard.tsx:103-151 | After one or more edits to a fresh card, a single undo shows the body from before the latest edit. |
| IssueCard.Label | components/IssueCard.tsx:217-228 | Every category's label is non-empty and differs from the `triage` fallback. |
| IssueCard.LabelFor | components/IssueCard.tsx:217-231 | A known category gets its label from the table; the label is `triage` exactly when the category is not one of the ten. |
| IssueCard.LabelForCategories | components/IssueCard.tsx:217-231 | Each category's own name maps to its label, and distinct categories get distinct labels. |
| IssueCard.CreateIssueLink | components/IssueCard.tsx:210-235 | No link without a repository. Otherwise the link targets that repository's new-issue page with the edited title and body and the category's label. |
| IssueCard.FilterEmojis | components/IssueCard.tsx:284-287 | An entry is shown exactly when it is in the list and its name or a keyword contains the query, ignoring case. |
| IssueCard.EmptySearchShowsAll | components/IssueCard.tsx:284-287 | The empty query shows the whole list in order. |
| IssueCard.FilterEmojisConcat | components/IssueCard.tsx:284-287 | The filter keeps list order. |
| IssueCard.Mount | components/IssueCard.tsx:92-104 | A new card is collapsed and not editing, with a fresh edit session. |
| IssueCard.StartEditing | components/IssueCard.tsx:237-240 | Editing expands the card and leaves the text alone. |
| IssueCard.Save | components/IssueCard.tsx:242-246 | Saving leaves edit, fullscreen and preview modes and keeps the edited text. |
| IssueCard.Cancel | components/IssueCard.tsx:248-256 | Cancelling leaves the edit modes and restores the original title and body with a single-snapshot history. |
| IssueCard.ReceiveSuggestion | components/IssueCard.tsx:113-119 | A new suggestion resets the session to it and changes nothing else on the card. |
| IssueCard.PickEmoji | components/IssueCard.tsx:446-448 | Picking an emoji inserts exactly its glyph before the selection, keeps the selected text right after the glyph and the text around both, and commits the new body as a snapshot at once at index `min(old + 1, 49)`: redo is unavailable and one undo returns to the previous snapshot. |
| AppShell.Initial | App.tsx:14-22 | The app starts on the home page and generator tab, with nothing loaded and the saved history. |
| AppShell.AddToHistory | App.tsx:59-70 | The new entry is first, carrying the repository, suggestions and goals, and the old list follows unchanged. |
| AppShell.DeleteById | App.tsx:78-82 | The list never grows, and an unknown id leaves it unchanged. |
| AppShell.DeleteByIdMembers | App.tsx:78-82 | Exactly the entries with another id remain. |
| AppShell.DeleteByIdConcat | App.tsx:78-82 | Deleting keeps order: deleting from a concatenation deletes from each part. |
| AppShell.DeleteOnlyThatEntry | App.tsx:78-82 | With unique ids, deleting an entry's id removes that entry only and keeps the rest in order. |
| AppShell.DeleteUndoesAdd | App.tsx:59-82 | Deleting the entry just added under a new id gives back the previous list. |
| AppShell.ClearHistory | App.tsx:72-76 | A confirmed clear empties the list; a declined one changes nothing. |
| AppShell.LoadHistoryItem | App.tsx:84-88 | Loading an entry shows its repository and suggestions, clears the error and loading flag, switches to the generator tab, and leaves the history unchanged. |
| AppShell.BeginAnalyze | App.tsx:90-98 | An unparseable URL changes only the error. A valid one records `{owner, name, url}` and sets the state to loading with no error and no data. |
| AppShell.CompleteAnalyze | App.tsx:100-110 | On success the suggestions are shown and a matching entry goes in front of the history list captured when analyze was pressed. On failure the message, or the default when it is empty, is shown with no data and the history unchanged. |
| AppShell.HandleAnalyze | App.tsx:90-111 | An invalid URL only sets the error. A valid one ends not loading, with its repository current. When the service succeeds, its suggestions are shown with no error and an entry for `{owner, name, url}` with those suggestions and the goals goes in front of the history. When it fails, exactly its message is shown with no data and the history is unchanged. |
| AppShell.ClearWhileLoadingIsUndone | App.tsx:68-103 | A clear confirmed while the request is loading is undone on success: the cleared entries come back behind the new one. |
| AppShell.DeleteWhileLoadingIsUndone | App.tsx:68-103 | An entry deleted while the request is loading is back in the list once the request succeeds. |
| AppShell.InvalidUrlIssuesNoRequest | App.tsx:91-95 | With an unparseable URL the outcome does not depend on the model, and loading, data, repository and history stay the same. |
| AppShell.CanonicalUrlScenario | App.tsx:90-111 | For `https://github.com/<owner>/<name>` and a good reply, the app ends showing the suggestions, with that repository current and one matching entry in front of the history. |
| AppShell.SelectTab | App.tsx:119-125 | The tab switcher sets the active tab and changes nothing else. |
| AppShell.PathOf | App.tsx:35-39 | Every path starts with `/`, and the path is `/` exactly for the home page and the empty page. |
| AppShell.PageOfPath | App.tsx:25-29 | The page read back is never empty, and a path without `/` reads as itself, or as home when empty. |
| AppShell.PageRoundTrip | App.tsx:27-37 | Every non-empty page name survives navigation to its path and back. |
| AppShell.NavigateTo | App.tsx:35-39 | Only the page changes, and the pushed path reads back as the same page. |
| AppShell.PopState | App.tsx:25-29 | The back button changes only the page, to a non-empty name read from the path. |

## Findings

| source | as written | input that shows it | evidently intended | confidence | as-written member | corrected member |
|---|---|---|---|---|---|---|
| components/IssueCard.tsx:258-263 | A toolbar insertion commits through `pushToHistory`, which truncates and appends but never evicts. Only the typed-commit path caps the history at 50. | Toolbar insertions on a history of 50 entries, at the last index, leave 51 entries (and more with each further insertion). | Insertions follow the same truncate-append-evict rule as typed commits, so the history never exceeds 50 snapshots. | medium, not executed | EditBuffer.PushToHistoryExceedsCap | EditBuffer.Insert |

`EditBuffer.PushToHistory` models the source as written. `EditBuffer.Insert`
uses the corrected rule `EditBuffer.Checkpoint` with the index
`EditBuffer.CommitIndex`, and proves that the cap holds.
`EditBuffer.CheckpointAgreesWithPush` shows the two rules agree whenever the
history is below the cap, so the correction only matters at 50 snapshots.

## Left out

- Rendering, styling, icons and colours are not modelled. This covers the default icon and colour for unknown categories, the expand, fullscreen, preview and emoji-picker toggles, theme and mobile menu state, and the layout, input and static page components. They are presentation only.
- The model request is not modelled: the prompt text, the model name and the search tool configuration. The request is a foreign call, so its outcome is the `Reply` input. The `scanTodos` flag only shapes the prompt and is therefore not an input of `AppShell.HandleAnalyze`.
- `JSON.parse`, the `URL` constructor, `URLSearchParams` encoding, `window.open`, Markdown rendering and the clipboard (with its two-second "copied" flag) are foreign library calls. They are inputs or record fields, and `IssueCard.NewIssueLink` holds the query values before encoding.
- Reading and writing the history in `localStorage` is browser I/O. The model keeps the history as an in-memory list and takes the saved list as an input of `AppShell.Initial`.
- Real timers and React's asynchronous state batching are not modelled. The 800 ms quiet period becomes the explicit `EditBuffer.Commit` event. The stale `historyIndex` captured by the timer callback (`components/IssueCard.tsx:131`) is replaced by the current index.
- `Math.random` and `Date.now` are inputs, so perspective picks, ids and timestamps are not modelled as drawn from a clock or generator.
- Console logging is left out because it has no effect on state.
- Strings.Lower: only ASCII letters are lower-cased, because full Unicode case mapping is outside the model. Emoji search over non-ASCII names may therefore differ from the source.
- EditBuffer.Splice: lengths are counted in characters, while the source counts UTF-16 code units, so an emoji glyph's `length` corresponds to the length of its `glyph` string here only when that string is written in code units.
- IssueCard.LabelFor: a category equal to an inherited object property name such as `constructor` or `toString` gets `triage` here. The source's plain-object lookup would return the inherited value instead.
- IssueCard.FilterEmojis: the seventy-entry emoji table is an input rather than a constant, because its contents carry no behaviour.

=== FILE: app_shell.dfy ===
/** The application shell: the request state machine driven by "analyze",
    the history list (newest first), the generator/history tab and the
    page-to-path routing. Browser storage is not modelled: the history is an
    in-memory list, and the saved list read at start-up is an input. */
module AppShell {
  import opened Wrappers
  import opened Strings
  import opened Types
  import Service = GeminiService

  const InvalidUrlMessage: string := "Please enter a valid GitHub repository URL."
  const DefaultAnalyzeError: string := "Something went wrong while analyzing the repository."
  const HomePage: string := "home"

  datatype Tab = Generate | HistoryTab

  datatype App = App(
    page: string,
    tab: Tab,
    state: GenerateState,
    currentRepo: Option<RepoInfo>,
    history: seq<HistoryItem>)

  /** The state after mounting, given the list read from storage. */
  function Initial(saved: seq<HistoryItem>): (a: App)
    ensures a.page == HomePage && a.tab == Generate && a.currentRepo.None?
    ensures a.state == GenerateState(false, None, None) && a.history == saved
  {
    App(HomePage, Generate, GenerateState(false, None, None), None, saved)
  }

  /** `addToHistory`: a new entry in front of the old list. */
  function AddToHistory(history: seq<HistoryItem>, repo: RepoInfo, suggestions: seq<IssueSuggestion>,
                        goals: Option<string>, id: string, timestamp: int): (r: seq<HistoryItem>)
    ensures |r| == |history| + 1 && r[1..] == history
    ensures r[0] == HistoryItem(id, timestamp, repo, suggestions, goals)
  {
    [HistoryItem(id, timestamp, repo, suggestions, goals)] + history
  }

  /** `history.filter(item => item.id !== id)` */
  function DeleteById(history: seq<HistoryItem>, id: string): (r: seq<HistoryItem>)
    ensures |r| <= |history|
    ensures (forall k :: 0 <= k < |history| ==> history[k].id != id) ==> r == history
  {
    if |history| == 0 then []
    else
      var rest := DeleteById(history[1..], id);
      if history[0].id == id then rest
      else
        assert history == [history[0]] + history[1..];
        [history[0]] + rest
  }

  /** Exactly the entries with another id remain. */
  lemma {:induction false} DeleteByIdMembers(history: seq<HistoryItem>, id: string)
    ensures forall x :: x in DeleteById(history, id) <==> x in history && x.id != id
    decreases |history|
  {
    if |history| > 0 {
      assert forall x :: x in history <==> x == history[0] || x in history[1..];
      DeleteByIdMembers(history[1..], id);
    }
  }

  /** Deletion keeps order: deleting from a concatenation deletes from each part. */
  lemma {:induction false} DeleteByIdConcat(a: seq<HistoryItem>, b: seq<HistoryItem>, id: string)
    ensures DeleteById(a + b, id) == DeleteById(a, id) + DeleteById(b, id)
    decreases |a|
  {
    if |a| == 0 {
      assert a + b == b;
    } else {
      assert (a + b)[0] == a[0] && (a + b)[1..] == a[1..] + b;
      DeleteByIdConcat(a[1..], b, id);
    }
  }

  /** With unique ids, deleting one entry's id removes exactly that entry and
      leaves the others in order. */
  lemma {:induction false} DeleteOnlyThatEntry(history: seq<HistoryItem>, k: nat)
    requires k < |history|
    requires forall j :: 0 <= j < |history| && j != k ==> history[j].id != history[k].id
    ensures DeleteById(history, history[k].id) == history[..k] + history[k + 1..]
    decreases k
  {
    var id, tail := history[k].id, history[1..];
    if k == 0 {
      forall j | 0 <= j < |tail| ensures tail[j].id != id {
        assert tail[j] == history[j + 1];
      }
    } else {
      forall j | 0 <= j < |tail| && j != k - 1 ensures tail[j].id != tail[k - 1].id {
        assert tail[j] == history[j + 1];
      }
      DeleteOnlyThatEntry(tail, k - 1);
      assert history[..k] == [history[0]] + tail[..k - 1];
      assert history[k + 1..] == tail[k..];
    }
  }

  /** Deleting the entry just added, when its id was new, restores the list. */
  lemma DeleteUndoesAdd(history: seq<HistoryItem>, repo: RepoInfo, suggestions: seq<IssueSuggestion>,
                        goals: Option<string>, id: string, timestamp: int)
    requires forall k :: 0 <= k < |history| ==> history[k].id != id
    ensures DeleteById(AddToHistory(history, repo, suggestions, goals, id, timestamp), id) == history
  {
    var item := HistoryItem(id, timestamp, repo, suggestions, goals);
    DeleteByIdConcat([item], history, id);
    assert DeleteById([item], id) == [];
  }

  /** `clearHistory`: empties the list only when the user confirms. */
  function ClearHistory(history: seq<HistoryItem>, confirmed: bool): (r: seq<HistoryItem>)
    ensures confirmed ==> r == []
    ensures !confirmed ==> r == history
  {
    if confirmed then [] else history
  }

  /** `loadHistoryItem`: shows a stored run in the generator tab. */
  function LoadHistoryItem(app: App, item: HistoryItem): (r: App)
    ensures r.currentRepo == Some(item.repoInfo)
    ensures r.state == GenerateState(false, None, Some(item.suggestions))
    ensures r.tab == Generate
    ensures r.history == app.history && r.page == app.page
  {
    app.(currentRepo := Some(item.repoInfo),
         state := GenerateState(false, None, Some(item.suggestions)),
         tab := Generate)
  }

  /** The synchronous part of `handleAnalyze`: an unparseable URL only sets
      the error; a valid one records the repository and enters loading. */
  function BeginAnalyze(app: App, url: string, parts: Option<Service.UrlParts>): (r: App)
    ensures Service.ParseRepoUrl(parts).None? ==>
      r == app.(state := app.state.(error := Some(InvalidUrlMessage)))
    ensures Service.ParseRepoUrl(parts).Some? ==>
      && r.currentRepo == Some(RepoInfo(Service.ParseRepoUrl(parts).value.owner,
                                        Service.ParseRepoUrl(parts).value.name, url))
      && r.state == GenerateState(true, None, None)
      && r.history == app.history && r.tab == app.tab && r.page == app.page
  {
    match Service.ParseRepoUrl(parts)
    case None => app.(state := app.state.(error := Some(InvalidUrlMessage)))
    case Some(rn) =>
      app.(currentRepo := Some(RepoInfo(rn.owner, rn.name, url)), state := GenerateState(true, None, None))
  }

  /** The part of `handleAnalyze` after the service settles: success shows
      the suggestions and records a run; failure shows the message, or the
      fixed default when it is empty, and records nothing. `app` is the state
      when the request settles and `started` the history list as it was when
      analyze was pressed: the success handler's `addToHistory` closes over
      that list, so the new entry goes in front of it. */
  function CompleteAnalyze(app: App, started: seq<HistoryItem>, repo: RepoInfo, goals: string,
                           outcome: Result<seq<IssueSuggestion>, string>,
                           id: string, timestamp: int): (r: App)
    ensures !r.state.isLoading
    ensures outcome.Success? ==>
      && r.state == GenerateState(false, None, Some(outcome.value))
      && r.history == [HistoryItem(id, timestamp, repo, outcome.value, Some(goals))] + started
    ensures outcome.Failure? ==>
      && r.state.data.None?
      && r.state.error == Some(if outcome.error == "" then DefaultAnalyzeError else outcome.error)
      && r.history == app.history
    ensures r.currentRepo == app.currentRepo && r.tab == app.tab && r.page == app.page
  {
    match outcome
    case Success(suggestions) =>
      app.(state := GenerateState(false, None, Some(suggestions)),
           history := AddToHistory(started, repo, suggestions, Some(goals), id, timestamp))
    case Failure(message) =>
      app.(state := GenerateState(false, Some(if message == "" then DefaultAnalyzeError else message), None))
  }

  /** `handleAnalyze(url, goals, scanTodos)` run to completion. `parts` is what
      the `URL` constructor made of `url`, `reply` what the model answered,
      `parseJson` stands for `JSON.parse`, and `id`/`timestamp` for the clock. */
  function HandleAnalyze(app: App, url: string, goals: string, parts: Option<Service.UrlParts>,
                         reply: Service.Reply, parseJson: string -> Option<seq<IssueSuggestion>>,
                         id: string, timestamp: int): (r: App)
    ensures Service.ParseRepoUrl(parts).None? ==>
      r == app.(state := app.state.(error := Some(InvalidUrlMessage)))
    ensures Service.ParseRepoUrl(parts).Some? ==>
      && !r.state.isLoading
      && r.currentRepo == Some(RepoInfo(Service.ParseRepoUrl(parts).value.owner,
                                        Service.ParseRepoUrl(parts).value.name, url))
      && (r.state.data.Some? <==> r.history != app.history)
      && (r.state.error.None? <==> r.state.data.Some?)
    ensures Service.ParseRepoUrl(parts).Some? ==>
      var rn := Service.ParseRepoUrl(parts).value;
      var outcome := Service.GenerateIssueSuggestions(parts, reply, parseJson);
      && (outcome.Success? ==>
            && r.state == GenerateState(false, None, Some(outcome.value))
            && r.history == [HistoryItem(id, timestamp, RepoInfo(rn.owner, rn.name, url),
                                         outcome.value, Some(goals))] + app.history)
      && (outcome.Failure? ==>
            r.state == GenerateState(false, Some(outcome.error), None) && r.history == app.history)
  {
    match Service.ParseRepoUrl(parts)
    case None => BeginAnalyze(app, url, parts)
    case Some(rn) =>
      var outcome := Service.GenerateIssueSuggestions(parts, reply, parseJson);
      var r := CompleteAnalyze(BeginAnalyze(app, url, parts), app.history, RepoInfo(rn.owner, rn.name, url),
                               goals, outcome, id, timestamp);
      assert outcome.Success? ==> |r.history| == |app.history| + 1;
      r
  }

  /** A confirmed clear while the request is loading does not last: on
      success the entry goes in front of the list captured when analyze was
      pressed, so the cleared entries come back behind it. */
  lemma ClearWhileLoadingIsUndone(app: App, repo: RepoInfo, goals: string,
                                  list: seq<IssueSuggestion>, id: string, timestamp: int)
    ensures var cleared := app.(history := ClearHistory(app.history, true));
      CompleteAnalyze(cleared, app.history, repo, goals, Success(list), id, timestamp).history
      == [HistoryItem(id, timestamp, repo, list, Some(goals))] + app.history
  {
  }

  /** Likewise a deletion while the request is loading: the deleted entry is
      back in the list once the request succeeds. */
  lemma DeleteWhileLoadingIsUndone(app: App, k: nat, repo: RepoInfo, goals: string,
                                   list: seq<IssueSuggestion>, id: string, timestamp: int)
    requires k < |app.history|
    ensures var deleted := app.(history := DeleteById(app.history, app.history[k].id));
      && app.history[k] !in deleted.history
      && app.history[k] in CompleteAnalyze(deleted, app.history, repo, goals, Success(list), id, timestamp).history
  {
    DeleteByIdMembers(app.history, app.history[k].id);
    var r := CompleteAnalyze(app.(history := DeleteById(app.history, app.history[k].id)), app.history,
                             repo, goals, Success(list), id, timestamp);
    assert r.history[k + 1] == app.history[k];
  }

  /** The tab switcher: only the active tab changes. */
  function SelectTab(app: App, tab: Tab): (r: App)
    ensures r.tab == tab
    ensures r.(tab := app.tab) == app
  {
    app.(tab := tab)
  }

  /** An unparseable URL issues no request: the result does not depend on
      what the model would have answered, and only the error changes. */
  lemma InvalidUrlIssuesNoRequest(app: App, url: string, goals: string, parts: Option<Service.UrlParts>,
                                  reply1: Service.Reply, reply2: Service.Reply,
                                  parseJson: string -> Option<seq<IssueSuggestion>>,
                                  id: string, timestamp: int)
    requires Service.ParseRepoUrl(parts).None?
    ensures var r := HandleAnalyze(app, url, goals, parts, reply1, parseJson, id, timestamp);
      && r == HandleAnalyze(app, url, goals, parts, reply2, parseJson, id, timestamp)
      && r.state.isLoading == app.state.isLoading && r.state.data == app.state.data
      && r.currentRepo == app.currentRepo && r.history == app.history
  {
  }

  /** The end-to-end run for a URL such as `https://github.com/acme/widgets`
      (owner `acme`, name `widgets`): the suggestions the model returns are
      shown, and one entry for that repository is put in front of the history. */
  lemma CanonicalUrlScenario(app: App, url: string, owner: string, name: string, goals: string,
                             text: string, list: seq<IssueSuggestion>,
                             parseJson: string -> Option<seq<IssueSuggestion>>,
                             id: string, timestamp: int)
    requires owner != "" && '/' !in owner && name != "" && '/' !in name
    requires Service.ReadSuggestions(Some(text), parseJson) == Success(list)
    ensures HandleAnalyze(app, url, goals, Some(Service.UrlParts(Service.GitHubHost, "/" + owner + "/" + name)),
                          Service.Answered(Some(text)), parseJson, id, timestamp)
            == app.(currentRepo := Some(RepoInfo(owner, name, url)),
                    state := GenerateState(false, None, Some(list)),
                    history := [HistoryItem(id, timestamp, RepoInfo(owner, name, url), list, Some(goals))] + app.history)
  {
    var parts := Some(Service.UrlParts(Service.GitHubHost, "/" + owner + "/" + name));
    Service.ParseCanonicalUrl(owner, name, "");
    assert "/" + owner + "/" + name + "" == "/" + owner + "/" + name;
  }

  /** `navigateTo`'s path: `/` for the home page, `/<page>` otherwise. */
  function PathOf(page: string): (path: string)
    ensures |path| > 0 && path[0] == '/'
    ensures path == "/" <==> page == HomePage || page == ""
  {
    if page == HomePage then "/" else "/" + page
  }

  /** The popstate handler: drop the first `/`, and an empty rest is home. */
  function PageOfPath(path: string): (page: string)
    ensures page != ""
    ensures '/' !in path ==> page == (if path == "" then HomePage else path)
  {
    var rest := RemoveFirst(path, '/');
    if rest == "" then HomePage else rest
  }

  /** Every non-empty page name survives the trip to a path and back. */
  lemma PageRoundTrip(page: string)
    requires page != ""
    ensures PageOfPath(PathOf(page)) == page
  {
    if page != HomePage {
      assert ("/" + page)[0] == '/';
      assert ("/" + page)[1..] == page;
    }
  }

  /** `navigateTo`: the page changes and its path is pushed. */
  function NavigateTo(app: App, page: string): (r: (App, string))
    ensures r.0 == app.(page := page)
    ensures page != "" ==> PageOfPath(r.1) == page
  {
    if page == "" then (app.(page := page), PathOf(page))
    else
      PageRoundTrip(page);
      (app.(page := page), PathOf(page))
  }

  /** The browser's back button: the page is read back from the path. */
  function PopState(app: App, path: string): (r: App)
    ensures r == app.(page := PageOfPath(path))
    ensures r.page != ""
  {
    app.(page := PageOfPath(path))
  }
}

=== FILE: edit_buffer.dfy ===
/** The issue card's body editor: a linear undo/redo history of body
    snapshots with an index into it, typed edits that are checkpointed when
    the debounce timer fires, toolbar insertions that checkpoint at once, and
    the reset on cancel or on a new suggestion.

    The timer is not modelled as time: `Type` arms it by recording the typed
    text in `pending`, and `Commit` is the timer firing. Only `Type` re-arms
    or clears the timer and only `Commit` consumes it, as in the source:
    undo, redo, insertion and reset leave a pending commit in place. */
module EditBuffer {
  import opened Wrappers
  import opened Types

  /** Most snapshots a typed commit keeps. */
  const HistoryCap: nat := 50

  datatype Session = Session(
    title: string,
    body: string,
    history: seq<string>,
    index: nat,
    pending: Option<string>)

  /** A text selection `[start, end)` in the body. */
  datatype Selection = Selection(start: nat, end: nat)

  /** The index points at a snapshot. */
  predicate Indexed(s: Session) {
    0 < |s.history| && s.index < |s.history|
  }

  /** The index points at a snapshot and the cap holds. */
  predicate Valid(s: Session) {
    Indexed(s) && |s.history| <= HistoryCap
  }

  /** No commit is pending and the body is the snapshot at the index. */
  predicate Synced(s: Session) {
    Indexed(s) && s.pending.None? && s.body == s.history[s.index]
  }

  /** The undo button is enabled. */
  predicate CanUndo(s: Session) {
    s.index > 0
  }

  /** The redo button is enabled. */
  predicate CanRedo(s: Session) {
    s.index + 1 < |s.history|
  }

  /** The state a card starts with: the suggestion's text and one snapshot. */
  function Open(suggestion: IssueSuggestion): (s: Session)
    ensures Valid(s) && Synced(s)
    ensures s.title == suggestion.title && s.body == suggestion.body
    ensures !CanUndo(s) && !CanRedo(s)
  {
    Session(suggestion.title, suggestion.body, [suggestion.body], 0, None)
  }

  /** Cancel, or a new suggestion arriving: title and body go back to the
      suggestion's and the history collapses to that one body. A pending
      commit is not cancelled. */
  function Reset(s: Session, suggestion: IssueSuggestion): (r: Session)
    ensures Valid(r)
    ensures r.title == suggestion.title && r.body == suggestion.body
    ensures r.history == [suggestion.body] && r.index == 0
    ensures r.pending == s.pending
    ensures Undo(r) == r && Redo(r) == r
    ensures s.pending.None? ==> r == Open(suggestion)
  {
    Session(suggestion.title, suggestion.body, [suggestion.body], 0, s.pending)
  }

  /** Step back one snapshot, unless at the first. */
  function Undo(s: Session): (r: Session)
    requires Indexed(s)
    ensures Indexed(r) && (Valid(s) ==> Valid(r))
    ensures r.history == s.history && r.title == s.title && r.pending == s.pending
    ensures !CanUndo(s) ==> r == s
    ensures CanUndo(s) ==> r.index == s.index - 1 && r.body == s.history[r.index] && CanRedo(r)
    ensures s.pending.None? ==> Synced(r) || r == s
  {
    if s.index > 0 then s.(index := s.index - 1, body := s.history[s.index - 1]) else s
  }

  /** Step forward one snapshot, unless at the last. */
  function Redo(s: Session): (r: Session)
    requires Indexed(s)
    ensures Indexed(r) && (Valid(s) ==> Valid(r))
    ensures r.history == s.history && r.title == s.title && r.pending == s.pending
    ensures !CanRedo(s) ==> r == s
    ensures CanRedo(s) ==> r.index == s.index + 1 && r.body == s.history[r.index] && CanUndo(r)
    ensures s.pending.None? ==> Synced(r) || r == s
  {
    if s.index + 1 < |s.history| then s.(index := s.index + 1, body := s.history[s.index + 1]) else s
  }

  /** A keystroke: the body changes at once and the timer is (re)armed with
      the new text; the history is untouched. */
  function Type(s: Session, text: string): (r: Session)
    ensures r.body == text && r.pending == Some(text)
    ensures r.history == s.history && r.index == s.index && r.title == s.title
  {
    s.(body := text, pending := Some(text))
  }

  /** The title field: edited directly, outside the undo history. */
  function EditTitle(s: Session, title: string): (r: Session)
    ensures r.title == title
    ensures r.body == s.body && r.history == s.history && r.index == s.index && r.pending == s.pending
    ensures Indexed(s) ==> Undo(r) == Undo(s).(title := title) && Redo(r) == Redo(s).(title := title)
  {
    s.(title := title)
  }

  /** The truncate-append-evict rule: keep the snapshots up to the index,
      append `text`, and drop the oldest ones beyond the cap. */
  function Checkpoint(history: seq<string>, index: nat, text: string): (h: seq<string>)
    requires index < |history|
    ensures |h| == if index + 2 <= HistoryCap then index + 2 else HistoryCap
    ensures h[|h| - 1] == text
    ensures forall k :: 0 <= k < |h| - 1 ==> h[k] == history[index + 2 - |h| + k]
  {
    var grown := history[..index + 1] + [text];
    if |grown| > HistoryCap then grown[|grown| - HistoryCap..] else grown
  }

  /** `Math.min(prev + 1, 49)`: the index after a typed commit. */
  function CommitIndex(index: nat): (r: nat)
    ensures r <= index + 1 && r <= HistoryCap - 1
    ensures r == index + 1 || r == HistoryCap - 1
  {
    if index + 1 < HistoryCap - 1 then index + 1 else HistoryCap - 1
  }

  /** The clamped index of a typed commit is the last position of the
      checkpointed history, whenever the old index was valid. */
  lemma CommitIndexIsLast(history: seq<string>, index: nat, text: string)
    requires index < |history|
    ensures CommitIndex(index) == |Checkpoint(history, index, text)| - 1
  {
  }

  /** The debounce timer fires: the text it was armed with becomes the
      snapshot after the index, the redo future is dropped, the history is
      capped, and the index moves to the new snapshot. */
  function Commit(s: Session): (r: Session)
    requires Indexed(s)
    ensures s.pending.None? ==> r == s
    ensures s.pending.Some? ==>
      && Valid(r) && r.pending.None? && !CanRedo(r)
      && r.history[r.index] == s.pending.value
      && CanUndo(r) && r.history[r.index - 1] == s.history[s.index]
      && r.index == CommitIndex(s.index) && r.index <= s.index + 1
      && r.body == s.body && r.title == s.title
  {
    match s.pending
    case None => s
    case Some(text) =>
      s.(history := Checkpoint(s.history, s.index, text), index := CommitIndex(s.index), pending := None)
  }

  /** The snapshots a commit keeps before the new one are the most recent
      ones up to the old index, in order. */
  lemma CommitKeepsRecent(s: Session)
    requires Indexed(s) && s.pending.Some?
    ensures Commit(s).history[..Commit(s).index] == s.history[s.index + 1 - Commit(s).index..s.index + 1]
  {
  }

  /** The text `body[..start] + before + body[start..end] + after + body[end..]`
      that a toolbar action produces. */
  function Splice(body: string, start: nat, end: nat, before: string, after: string): (r: string)
    requires start <= end <= |body|
    ensures |r| == |body| + |before| + |after|
    ensures r[..start] == body[..start]
    ensures r[start..start + |before|] == before
    ensures r[start + |before|..end + |before|] == body[start..end]
    ensures r[end + |before|..end + |before| + |after|] == after
    ensures r[end + |before| + |after|..] == body[end..]
  {
    body[..start] + before + body[start..end] + after + body[end..]
  }

  /** Cutting the inserted markers back out of a splice gives the original body. */
  lemma SpliceUnwrap(body: string, start: nat, end: nat, before: string, after: string)
    requires start <= end <= |body|
    ensures var r := Splice(body, start, end, before, after);
      r[..start] + r[start + |before|..end + |before|] + r[end + |before| + |after|..] == body
  {
    assert body == body[..start] + body[start..end] + body[end..];
  }

  /** `pushToHistory` as written: truncate after the index, append, and move
      the index to the end, with no cap. */
  function PushToHistory(history: seq<string>, index: nat, text: string): (r: (seq<string>, nat))
    requires index < |history|
    ensures |r.0| == index + 2 && r.1 == |r.0| - 1
    ensures r.0[..index + 1] == history[..index + 1] && r.0[r.1] == text
  {
    var h := history[..index + 1] + [text];
    (h, |h| - 1)
  }

  /** The uncapped push lets a history at the cap grow past it. */
  lemma PushToHistoryExceedsCap()
    ensures var full := seq(HistoryCap, k => "");
      |PushToHistory(full, HistoryCap - 1, "x").0| == HistoryCap + 1
  {
  }

  /** Below the cap the corrected rule and the push as written agree. */
  lemma CheckpointAgreesWithPush(history: seq<string>, index: nat, text: string)
    requires index < |history| && index + 2 <= HistoryCap
    ensures Checkpoint(history, index, text) == PushToHistory(history, index, text).0
    ensures CommitIndex(index) == PushToHistory(history, index, text).1
  {
    var h := Checkpoint(history, index, text);
    assert |h| == index + 2;
  }

  /** A toolbar action (`insertText`): without an editor element it does
      nothing; otherwise it splices the markers around the selection, commits
      the new body at once under the checkpoint rule, and reports the
      selection shifted past `before`. A pending typed commit stays armed. */
  function Insert(s: Session, before: string, after: string, selection: Option<Selection>)
    : (r: (Session, Option<Selection>))
    requires Indexed(s)
    requires selection.Some? ==> selection.value.start <= selection.value.end <= |s.body|
    ensures selection.None? ==> r == (s, None)
    ensures selection.Some? ==> r.1 == Some(Selection(selection.value.start + |before|, selection.value.end + |before|))
    ensures selection.Some? ==> r.0.body == Splice(s.body, selection.value.start, selection.value.end, before, after)
    ensures selection.Some? ==> Valid(r.0) && !CanRedo(r.0) && r.0.history[r.0.index] == r.0.body
    ensures selection.Some? ==>
      && CanUndo(r.0) && r.0.index == CommitIndex(s.index) && r.0.index <= s.index + 1
      && r.0.history[..r.0.index] == s.history[s.index + 1 - r.0.index..s.index + 1]
    ensures r.0.pending == s.pending && r.0.title == s.title
  {
    match selection
    case None => (s, None)
    case Some(Selection(start, end)) =>
      var text := Splice(s.body, start, end, before, after);
      var next := s.(body := text,
                     history := Checkpoint(s.history, s.index, text),
                     index := CommitIndex(s.index));
      (next, Some(Selection(start + |before|, end + |before|)))
  }

  /** After a toolbar action the selected text sits at the reported
      selection, and one undo brings back the body from before the action
      whenever that body was the current snapshot. */
  lemma InsertThenUndo(s: Session, before: string, after: string, sel: Selection)
    requires Indexed(s) && sel.start <= sel.end <= |s.body|
    ensures var r := Insert(s, before, after, Some(sel));
      && r.0.body[r.1.value.start..r.1.value.end] == s.body[sel.start..sel.end]
      && CanUndo(r.0) && r.0.history[r.0.index - 1] == s.history[s.index]
      && (Synced(s) ==> Undo(r.0).body == s.body)
  {
    var r := Insert(s, before, after, Some(sel));
    var h := Checkpoint(s.history, s.index, r.0.body);
    assert r.0.history == h && |h| >= 2;
    assert h[|h| - 2] == s.history[s.index + 2 - |h| + |h| - 2];
  }

  /** Undo then redo returns to the same snapshot with the history intact. */
  lemma UndoThenRedo(s: Session)
    requires Indexed(s) && CanUndo(s)
    ensures Redo(Undo(s)) == s.(body := s.history[s.index])
    ensures s.body == s.history[s.index] ==> Redo(Undo(s)) == s
  {
  }

  /** Redo then undo returns to the same snapshot with the history intact. */
  lemma RedoThenUndo(s: Session)
    requires Indexed(s) && CanRedo(s)
    ensures Undo(Redo(s)) == s.(body := s.history[s.index])
    ensures s.body == s.history[s.index] ==> Undo(Redo(s)) == s
  {
  }

  /** A burst of keystrokes: each re-arms the timer with its own text. */
  function TypeAll(s: Session, texts: seq<string>): (r: Session)
    ensures r.history == s.history && r.index == s.index && r.title == s.title
    decreases |texts|
  {
    if |texts| == 0 then s else TypeAll(Type(s, texts[0]), texts[1..])
  }

  /** A burst leaves the history alone and arms the timer with its last text
      only, so it is checkpointed as one snapshot. */
  lemma {:induction false} TypeAllKeepsLast(s: Session, texts: seq<string>)
    requires |texts| > 0
    ensures TypeAll(s, texts) == Type(s, texts[|texts| - 1])
    decreases |texts|
  {
    if |texts| > 1 {
      TypeAllKeepsLast(Type(s, texts[0]), texts[1..]);
    }
  }

  /** Typing continuously, letting the timer fire once, then undoing returns
      to the body from before the burst, not to an intermediate keystroke. */
  lemma BurstThenUndo(s: Session, texts: seq<string>)
    requires Synced(s) && |texts| > 0
    ensures var t := Commit(TypeAll(s, texts));
      && |t.history| <= HistoryCap
      && t.history[t.index] == texts[|texts| - 1]
      && Undo(t).body == s.body
      && Redo(Undo(t)).body == texts[|texts| - 1]
  {
    TypeAllKeepsLast(s, texts);
  }

  /** One typed edit followed by its timer firing. */
  function Edit(s: Session, text: string): (r: Session)
    requires Indexed(s)
    ensures Synced(r) && r.body == text
  {
    Commit(Type(s, text))
  }

  /** A sequence of typed edits, each checkpointed before the next. */
  function EditAll(s: Session, texts: seq<string>): (r: Session)
    requires Indexed(s)
    ensures Indexed(r)
    decreases |texts|
  {
    if |texts| == 0 then s else EditAll(Edit(s, texts[0]), texts[1..])
  }

  /** `n` presses of undo. */
  function UndoTimes(s: Session, n: nat): (r: Session)
    requires Indexed(s)
    ensures Indexed(r)
    decreases n
  {
    if n == 0 then s else UndoTimes(Undo(s), n - 1)
  }

  /** From the last snapshot and below the cap, each edit appends exactly
      its text to the history. */
  lemma {:induction false} EditAllAppends(s: Session, texts: seq<string>)
    requires Synced(s) && s.index == |s.history| - 1
    requires |s.history| + |texts| <= HistoryCap
    ensures EditAll(s, texts).history == s.history + texts
    ensures EditAll(s, texts).index == |s.history| + |texts| - 1
    ensures Synced(EditAll(s, texts))
    decreases |texts|
  {
    if |texts| > 0 {
      var s1 := Edit(s, texts[0]);
      CheckpointAgreesWithPush(s.history, s.index, texts[0]);
      assert s.history[..s.index + 1] == s.history;
      assert s1.history == s.history + [texts[0]];
      EditAllAppends(s1, texts[1..]);
      assert s.history + [texts[0]] + texts[1..] == s.history + texts;
    }
  }

  /** `n` undos from index `i` land on snapshot `i - n`. */
  lemma {:induction false} UndoTimesWalksBack(s: Session, n: nat)
    requires Synced(s) && n <= s.index
    ensures UndoTimes(s, n).history == s.history
    ensures UndoTimes(s, n).index == s.index - n
    ensures Synced(UndoTimes(s, n))
    decreases n
  {
    if n > 0 {
      UndoTimesWalksBack(Undo(s), n - 1);
    }
  }

  /** After `N` edits from a fresh card (fewer than the cap), the history is
      the original body followed by the edits, and `N` undos give back the
      suggestion's body. */
  lemma EditsThenUndosRestore(suggestion: IssueSuggestion, texts: seq<string>)
    requires |texts| < HistoryCap
    ensures EditAll(Open(suggestion), texts).history == [suggestion.body] + texts
    ensures UndoTimes(EditAll(Open(suggestion), texts), |texts|).body == suggestion.body
  {
    var s0 := Open(suggestion);
    assert s0.history == [suggestion.body] && s0.index == 0;
    EditAllAppends(s0, texts);
    var s := EditAll(s0, texts);
    UndoTimesWalksBack(s, |texts|);
  }

  /** After one or more edits from a fresh card, a single undo gives the body
      from before the latest edit. */
  lemma EditsThenUndo(suggestion: IssueSuggestion, texts: seq<string>)
    requires 0 < |texts| < HistoryCap
    ensures Undo(EditAll(Open(suggestion), texts)).body == ([suggestion.body] + texts)[|texts| - 1]
  {
    var s0 := Open(suggestion);
    assert s0.history == [suggestion.body] && s0.index == 0;
    EditAllAppends(s0, texts);
    var s := EditAll(s0, texts);
    assert CanUndo(s) && s.index - 1 == |texts| - 1;
  }
}

=== FILE: gemini_service.dfy ===
/** The pure string logic of the suggestion service: repository URL parsing,
    the perspective combination, extraction of a JSON array from the model's
    free-form reply, and the mapping of caught errors to user messages.
    The `URL` constructor, the model call and `JSON.parse` are inputs. */
module GeminiService {
  import opened Wrappers
  import opened Strings
  import opened Types

  const GitHubHost: string := "github.com"

  const InvalidGitHubUrl: string := "Invalid GitHub URL"
  const NoDataError: string := "No data received from AI"
  const NonJsonResponse: string :=
    "The AI provided a text response " + "instead of specific issues. " + "This usually happens for new "
    + "or unindexed repositories. " + "Please try again."
  const ParseFailure: string := "Failed to parse AI response." + " Please try again."
  const AiRequestFailed: string := "AI request failed. " + "The repository might be " + "private or inaccessible."
  const GenerateFailed: string := "Failed to generate suggestions"

  /** What the `URL` constructor yields for a string it accepts. */
  datatype UrlParts = UrlParts(hostname: string, pathname: string)

  /** Owner and repository name, as `parseRepoUrl` returns them. */
  datatype RepoName = RepoName(owner: string, name: string)

  /** The non-empty `/`-separated segments of a path. */
  function Segments(path: string): (r: seq<string>)
    ensures forall k :: 0 <= k < |r| ==> r[k] != "" && '/' !in r[k]
  {
    var parts := Split(path, '/');
    var r := NonEmpty(parts);
    assert forall k :: 0 <= k < |r| ==> r[k] in parts;
    r
  }

  /** `parseRepoUrl(url)`, with `url` already run through the `URL`
      constructor: `None` when the constructor threw. */
  function ParseRepoUrl(url: Option<UrlParts>): (r: Option<RepoName>)
    ensures r.Some? <==>
      url.Some? && url.value.hostname == GitHubHost && |Segments(url.value.pathname)| >= 2
    ensures r.Some? ==>
      && r.value.owner == Segments(url.value.pathname)[0]
      && r.value.name == Segments(url.value.pathname)[1]
    ensures r.Some? ==>
      && r.value.owner != "" && '/' !in r.value.owner
      && r.value.name != "" && '/' !in r.value.name
  {
    match url
    case None => None
    case Some(u) =>
      if u.hostname != GitHubHost then None
      else
        var parts := Segments(u.pathname);
        if |parts| < 2 then None else Some(RepoName(parts[0], parts[1]))
  }

  /** A path with no separator is one segment, or none when empty. */
  lemma SegmentsOfName(s: string)
    requires '/' !in s
    ensures Segments(s) == if s == "" then [] else [s]
  {
    SplitWithoutSep(s, '/');
  }

  /** The segments of `a/b` are those of `a` followed by those of `b`. */
  lemma SegmentsConcat(a: string, b: string)
    ensures Segments(a + "/" + b) == Segments(a) + Segments(b)
  {
    SplitConcat(a, b, '/');
    NonEmptyConcat(Split(a, '/'), Split(b, '/'));
  }

  /** Repeated slashes are ignored. */
  lemma RepeatedSlashesIgnored(a: string, b: string)
    ensures Segments(a + "//" + b) == Segments(a + "/" + b)
  {
    assert a + "//" + b == a + "/" + ("" + "/" + b);
    SegmentsConcat(a, "" + "/" + b);
    SegmentsConcat("", b);
    SegmentsConcat(a, b);
    SegmentsOfName("");
  }

  /** A leading slash adds no segment. */
  lemma SegmentsLeadingSlash(x: string)
    ensures Segments("/" + x) == Segments(x)
  {
    assert "/" + x == "" + "/" + x;
    SegmentsConcat("", x);
    SegmentsOfName("");
  }

  /** A separator-free first segment is followed by the segments of the rest. */
  lemma SegmentsCons(first: string, x: string)
    requires first != "" && '/' !in first
    ensures Segments(first + "/" + x) == [first] + Segments(x)
  {
    SegmentsConcat(first, x);
    SegmentsOfName(first);
  }

  /** The path of a canonical repository URL starts with the owner and name
      segments. */
  lemma CanonicalSegments(owner: string, name: string, rest: string)
    requires owner != "" && '/' !in owner
    requires name != "" && '/' !in name
    requires rest == "" || rest[0] == '/'
    ensures |Segments("/" + owner + "/" + name + rest)| >= 2
    ensures Segments("/" + owner + "/" + name + rest)[..2] == [owner, name]
  {
    var after := name + rest;
    var tailSegments: seq<string>;
    if rest == "" {
      assert after == name;
      SegmentsOfName(name);
      tailSegments := [];
    } else {
      var tail := rest[1..];
      assert after == name + "/" + tail;
      SegmentsCons(name, tail);
      tailSegments := Segments(tail);
    }
    assert Segments(after) == [name] + tailSegments;
    assert "/" + owner + "/" + name + rest == "/" + (owner + "/" + after);
    SegmentsLeadingSlash(owner + "/" + after);
    SegmentsCons(owner, after);
    assert Segments("/" + owner + "/" + name + rest) == [owner, name] + tailSegments;
  }

  /** A canonical repository URL parses to its owner and name, whatever path
      follows them. */
  lemma ParseCanonicalUrl(owner: string, name: string, rest: string)
    requires owner != "" && '/' !in owner
    requires name != "" && '/' !in name
    requires rest == "" || rest[0] == '/'
    ensures ParseRepoUrl(Some(UrlParts(GitHubHost, "/" + owner + "/" + name + rest)))
            == Some(RepoName(owner, name))
  {
    var segments := Segments("/" + owner + "/" + name + rest);
    CanonicalSegments(owner, name, rest);
    assert segments[0] == segments[..2][0] && segments[1] == segments[..2][1];
  }

  /** Segments after the second do not change the result. */
  lemma ExtraSegmentsIgnored(host: string, path: string, extra: string)
    requires |Segments(path)| >= 2
    ensures ParseRepoUrl(Some(UrlParts(host, path + "/" + extra)))
            == ParseRepoUrl(Some(UrlParts(host, path)))
  {
    SegmentsConcat(path, extra);
  }

  /** Number of perspectives the service chooses from. */
  const PerspectiveCount: nat := 10

  /** `Math.floor(Math.random() * perspectives.length)`, with the random draw
      `u` in [0, 1) as an input. */
  function PerspectiveIndex(u: real): (i: nat)
    requires 0.0 <= u < 1.0
    ensures i < PerspectiveCount
    ensures i as real <= u * PerspectiveCount as real < i as real + 1.0
  {
    (u * PerspectiveCount as real).Floor
  }

  const PerspectiveSeparator: string := " AND "

  /** Two identical picks give that single perspective; otherwise both are
      joined by the separator, first pick first. */
  function CombinePerspectives(p1: string, p2: string): (r: string)
    ensures r == p1 <==> p1 == p2
    ensures |p1| <= |r| && r[..|p1|] == p1
    ensures |p2| <= |r| && r[|r| - |p2|..] == p2
    ensures p1 != p2 ==> |p1| + |p2| < |r| && r[|p1|..|r| - |p2|] == PerspectiveSeparator
  {
    if p1 == p2 then p1 else p1 + PerspectiveSeparator + p2
  }

  /** The lens of one request: two random picks from the perspective list. */
  function ChooseLens(perspectives: seq<string>, u1: real, u2: real): (r: string)
    requires |perspectives| == PerspectiveCount
    requires 0.0 <= u1 < 1.0 && 0.0 <= u2 < 1.0
    ensures exists i, j ::
      && 0 <= i < |perspectives| && 0 <= j < |perspectives|
      && r == CombinePerspectives(perspectives[i], perspectives[j])
  {
    var i := PerspectiveIndex(u1);
    var j := PerspectiveIndex(u2);
    CombinePerspectives(perspectives[i], perspectives[j])
  }

  /** The text holds a `[` with a `]` somewhere after it: the regular
      expression `\[[\s\S]*\]` matches. */
  predicate HasArraySpan(t: string) {
    exists i, j :: 0 <= i < j < |t| && t[i] == '[' && t[j] == ']'
  }

  /** The leftmost-longest match of `\[[\s\S]*\]` when there is one; the whole
      text when it has none but starts with `[`; the non-JSON error otherwise. */
  function ExtractJsonArray(t: string): (r: Result<string, string>)
    ensures HasArraySpan(t) ==>
      && r.Success?
      && |r.value| >= 2 && r.value[0] == '[' && r.value[|r.value| - 1] == ']'
      && exists i: nat :: OccursAt(t, r.value, i) && '[' !in t[..i] && ']' !in t[i + |r.value|..]
    ensures !HasArraySpan(t) ==> (r.Failure? <==> !(|t| > 0 && t[0] == '['))
    ensures !HasArraySpan(t) && r.Success? ==> r.value == t
    ensures r.Failure? ==> r.error == NonJsonResponse
  {
    var open := IndexOf(t, '[');
    var close := LastIndexOf(t, ']');
    if open.Some? && close.Some? && open.value < close.value then
      var i, j := open.value, close.value;
      var m := t[i..j + 1];
      assert t[i + |m|..] == t[j + 1..];
      assert OccursAt(t, m, i);
      Success(m)
    else
      if |t| > 0 && t[0] == '[' then Success(t) else Failure(NonJsonResponse)
  }

  /** `replace(/```json/g, '').replace(/```/g, '')`: no fence survives. */
  function CleanFences(s: string): (r: string)
    ensures !Contains(r, Fence)
    ensures |r| <= |s|
  {
    var withoutTagged := RemoveAll(s, "```json");
    RemoveFencesLeavesNone(withoutTagged);
    RemoveAll(withoutTagged, Fence)
  }

  /** Text without fences passes the cleanup unchanged. */
  lemma CleanFencesKeepsFenceFree(s: string)
    requires !Contains(s, Fence)
    ensures CleanFences(s) == s
  {
    assert !Contains(s, "```json") by {
      forall i | 0 <= i <= |s| && OccursAt(s, "```json", i)
        ensures false
      {
        assert s[i..i + 7][..3] == s[i..i + 3];
        assert OccursAt(s, Fence, i);
      }
    }
    RemoveAllAbsent(s, "```json");
    RemoveAllAbsent(s, Fence);
  }

  /** Text before the first backtick is kept as it is. */
  lemma CleanFencesKeepsPlainPrefix(a: string, s: string)
    requires '`' !in a
    ensures CleanFences(a + s) == a + CleanFences(s)
  {
    RemoveAllKeepsPlainPrefix(a, s, "```json");
    RemoveAllKeepsPlainPrefix(a, RemoveAll(s, "```json"), Fence);
  }

  /** A leading tagged fence goes as a whole, tag included. */
  lemma CleanFencesDropsTaggedOpening(s: string)
    ensures CleanFences("```json" + s) == CleanFences(s)
  {
    var t := "```json" + s;
    assert t[..7] == "```json" && t[7..] == s;
  }

  /** A fenced block whose content holds no backtick is unwrapped to exactly
      its content. */
  lemma CleanFencesUnwrapsBlock(a: string)
    requires '`' !in a
    ensures CleanFences("```json" + a + "```") == a
  {
    assert "```json" + a + "```" == "```json" + (a + "```");
    CleanFencesDropsTaggedOpening(a + "```");
    CleanFencesKeepsPlainPrefix(a, "```");
    assert "```"[3..] == "";
    assert CleanFences("```") == "";
  }

  /** The caught-error handler: a message mentioning `400` becomes the fixed
      access message, an empty one the generic failure, any other passes. */
  function MapError(message: string): (r: string)
    ensures Contains(message, "400") ==> r == AiRequestFailed
    ensures !Contains(message, "400") && message != "" ==> r == message
    ensures message == "" ==> r == GenerateFailed
  {
    if Contains(message, "400") then AiRequestFailed
    else if message == "" then GenerateFailed
    else message
  }

  // No piece of the longer messages holds a `4`. Each piece is checked in a
  // lemma of its own because the cost of checking a literal character by
  // character grows faster than its length.
  lemma NonJsonPieceLacksFour1() ensures '4' !in "The AI provided a text response " {}
  lemma NonJsonPieceLacksFour2() ensures '4' !in "instead of specific issues. " {}
  lemma NonJsonPieceLacksFour3() ensures '4' !in "This usually happens for new " {}
  lemma NonJsonPieceLacksFour4() ensures '4' !in "or unindexed repositories. " {}
  lemma NonJsonPieceLacksFour5() ensures '4' !in "Please try again." {}
  lemma ParseFailurePieceLacksFour1() ensures '4' !in "Failed to parse AI response." {}
  lemma ParseFailurePieceLacksFour2() ensures '4' !in " Please try again." {}
  lemma AiRequestPieceLacksFour1() ensures '4' !in "AI request failed. " {}
  lemma AiRequestPieceLacksFour2() ensures '4' !in "The repository might be " {}
  lemma AiRequestPieceLacksFour3() ensures '4' !in "private or inaccessible." {}

  /** The non-JSON message mentions no `400`. */
  lemma NonJsonWithout400()
    ensures !Contains(NonJsonResponse, "400")
  {
    NonJsonPieceLacksFour1(); NonJsonPieceLacksFour2(); NonJsonPieceLacksFour3();
    NonJsonPieceLacksFour4(); NonJsonPieceLacksFour5();
    MissingFirstChar(NonJsonResponse, "400");
  }

  /** The parse and request failure messages mention no `400`. */
  lemma FailureMessagesWithout400()
    ensures !Contains(ParseFailure, "400")
    ensures !Contains(AiRequestFailed, "400")
  {
    ParseFailurePieceLacksFour1(); ParseFailurePieceLacksFour2();
    MissingFirstChar(ParseFailure, "400");
    AiRequestPieceLacksFour1(); AiRequestPieceLacksFour2(); AiRequestPieceLacksFour3();
    MissingFirstChar(AiRequestFailed, "400");
  }

  /** The fixed messages mention no `400`. */
  lemma FixedMessagesWithout400()
    ensures !Contains(InvalidGitHubUrl, "400")
    ensures !Contains(NoDataError, "400")
    ensures !Contains(NonJsonResponse, "400")
    ensures !Contains(ParseFailure, "400")
    ensures !Contains(AiRequestFailed, "400")
    ensures !Contains(GenerateFailed, "400")
  {
    MissingFirstChar(InvalidGitHubUrl, "400");
    MissingFirstChar(NoDataError, "400");
    MissingFirstChar(GenerateFailed, "400");
    NonJsonWithout400();
    FailureMessagesWithout400();
  }

  /** The service's own errors reach the caller with their text unchanged,
      and mapping an already mapped message changes nothing. */
  lemma MapErrorFixedPoints(message: string)
    ensures MapError(NoDataError) == NoDataError
    ensures MapError(NonJsonResponse) == NonJsonResponse
    ensures MapError(ParseFailure) == ParseFailure
    ensures MapError(MapError(message)) == MapError(message)
  {
    FixedMessagesWithout400();
  }

  /** The outcome of the model call: the reply text (absent when the reply
      has none), or the message of the error it was rejected with. */
  datatype Reply = Answered(text: Option<string>) | Rejected(message: string)

  /** The body of the `try` block after the model call: reject an empty
      reply, trim, extract the array, strip fences and hand the result to the
      JSON parser (`None` when it throws). */
  function ReadSuggestions(text: Option<string>, parseJson: string -> Option<seq<IssueSuggestion>>)
    : (r: Result<seq<IssueSuggestion>, string>)
    ensures (text.None? || text.value == "") ==> r == Failure(NoDataError)
    ensures r.Failure? ==> r.error in {NoDataError, NonJsonResponse, ParseFailure}
    ensures r.Success? ==> exists j :: !Contains(j, Fence) && parseJson(j) == Some(r.value)
    ensures text.Some? && text.value != "" ==>
      (r == Failure(NonJsonResponse) <==> ExtractJsonArray(Trim(text.value)).Failure?)
  {
    if text.None? || text.value == "" then Failure(NoDataError)
    else
      match ExtractJsonArray(Trim(text.value))
      case Failure(e) => Failure(e)
      case Success(candidate) =>
        var cleaned := CleanFences(candidate);
        match parseJson(cleaned)
        case None => Failure(ParseFailure)
        case Some(list) => Success(list)
  }

  /** An array with no `[` in front of it and no `]` behind it is exactly the
      span the match picks out, whatever text surrounds it. */
  lemma ExtractSurroundedArray(p: string, a: string, q: string)
    requires |a| >= 2 && a[0] == '[' && a[|a| - 1] == ']'
    requires '[' !in p && ']' !in q
    ensures ExtractJsonArray(p + a + q) == Success(a)
  {
    var t := p + a + q;
    assert forall k :: 0 <= k < |p| ==> t[k] == p[k];
    assert forall k :: |p| + |a| <= k < |t| ==> t[k] == q[k - |p| - |a|];
    assert t[|p|] == '[' && t[|p| + |a| - 1] == ']';
    assert IndexOf(t, '[') == Some(|p|);
    assert LastIndexOf(t, ']') == Some(|p| + |a| - 1);
    assert t[|p|..|p| + |a|] == a;
  }

  /** A reply that is just an array is extracted whole. */
  lemma ExtractBare(t: string)
    requires |t| >= 2 && t[0] == '[' && t[|t| - 1] == ']'
    ensures ExtractJsonArray(t) == Success(t)
  {
    assert "" + t + "" == t;
    ExtractSurroundedArray("", t, "");
  }

  /** Once the extracted span holds no fence, it is what the parser sees:
      the step shared by `ReadsBareArray` and `ReadsFencedArray`. */
  lemma ReadsExtracted(text: string, a: string, parseJson: string -> Option<seq<IssueSuggestion>>)
    requires text != "" && ExtractJsonArray(Trim(text)) == Success(a) && !Contains(a, Fence)
    ensures ReadSuggestions(Some(text), parseJson)
            == if parseJson(a).Some? then Success(parseJson(a).value) else Failure(ParseFailure)
  {
    CleanFencesKeepsFenceFree(a);
  }

  /** A bare JSON array without fences reaches the parser exactly as
      received: the list comes back when it parses, the parse error when not. */
  lemma ReadsBareArray(t: string, parseJson: string -> Option<seq<IssueSuggestion>>)
    requires |t| >= 2 && t[0] == '[' && t[|t| - 1] == ']'
    requires !Contains(t, Fence)
    ensures ReadSuggestions(Some(t), parseJson)
            == if parseJson(t).Some? then Success(parseJson(t).value) else Failure(ParseFailure)
  {
    assert ExtractJsonArray(Trim(t)) == Success(t) by {
      TrimKeepsTrimmed(t);
      ExtractBare(t);
    }
    ReadsExtracted(t, t, parseJson);
  }

  /** An array wrapped in a ```` ```json ```` code block is extracted without
      the fences. */
  lemma ExtractFenced(a: string)
    requires |a| >= 2 && a[0] == '[' && a[|a| - 1] == ']'
    ensures ExtractJsonArray(Trim("```json\n" + a + "\n```")) == Success(a)
  {
    var p, q := "```json\n", "\n```";
    var t := p + a + q;
    assert '[' !in p && ']' !in q;
    ExtractSurroundedArray(p, a, q);
    assert t[0] == p[0] == '`';
    assert t[|t| - 1] == q[|q| - 1] == '`';
    TrimKeepsTrimmed(t);
  }

  /** An array wrapped in a ```` ```json ```` code block reaches the parser
      without the fences: the list comes back when it parses, the parse
      error when not. */
  lemma ReadsFencedArray(a: string, parseJson: string -> Option<seq<IssueSuggestion>>)
    requires |a| >= 2 && a[0] == '[' && a[|a| - 1] == ']' && '`' !in a
    ensures ReadSuggestions(Some("```json\n" + a + "\n```"), parseJson)
            == if parseJson(a).Some? then Success(parseJson(a).value) else Failure(ParseFailure)
  {
    ExtractFenced(a);
    MissingFirstChar(a, Fence);
    ReadsExtracted("```json\n" + a + "\n```", a, parseJson);
  }

  /** `generateIssueSuggestions`: the URL guard runs before the model is
      asked; every later error goes through `MapError`. */
  function GenerateIssueSuggestions(
    url: Option<UrlParts>, reply: Reply, parseJson: string -> Option<seq<IssueSuggestion>>)
    : (r: Result<seq<IssueSuggestion>, string>)
    ensures ParseRepoUrl(url).None? ==> r == Failure(InvalidGitHubUrl)
    ensures ParseRepoUrl(url).Some? && reply.Answered? ==> r == ReadSuggestions(reply.text, parseJson)
    ensures ParseRepoUrl(url).Some? && reply.Rejected? ==> r == Failure(MapError(reply.message))
    ensures r.Failure? ==> r.error != "" && !Contains(r.error, "400")
  {
    FixedMessagesWithout400();
    if ParseRepoUrl(url).None? then Failure(InvalidGitHubUrl)
    else
      match reply
      case Rejected(message) => Failure(MapError(message))
      case Answered(text) =>
        match ReadSuggestions(text, parseJson)
        case Success(list) => Success(list)
        case Failure(e) => Failure(MapError(e))
  }

  /** When the model answered, the invalid-URL error comes back exactly when
      the URL does not parse. */
  lemma InvalidUrlErrorExactly(url: Option<UrlParts>, text: Option<string>,
                               parseJson: string -> Option<seq<IssueSuggestion>>)
    ensures GenerateIssueSuggestions(url, Answered(text), parseJson) == Failure(InvalidGitHubUrl)
            <==> ParseRepoUrl(url).None?
  {
  }

  /** An unparseable URL never reaches the model: the outcome is the same
      whatever the model would have replied. */
  lemma InvalidUrlMakesNoRequest(url: Option<UrlParts>, reply1: Reply, reply2: Reply,
                                 parseJson: string -> Option<seq<IssueSuggestion>>)
    requires ParseRepoUrl(url).None?
    ensures GenerateIssueSuggestions(url, reply1, parseJson)
            == GenerateIssueSuggestions(url, reply2, parseJson)
  {
  }
}

=== FILE: issue_card.dfy ===
/** The issue card around the editor: its display modes, edit/save/cancel,
    the "Create Issue" link with its category label, and the emoji search. */
module IssueCard {
  import opened Wrappers
  import opened Strings
  import opened Types
  import EditBuffer

  /** The label used for a category outside the table. */
  const FallbackLabel: string := "triage"

  /** The fixed category-to-label table. */
  function Label(t: IssueType): (r: string)
    ensures r != "" && r != FallbackLabel
  {
    match t
    case Bug => "bug"
    case Feature => "enhancement"
    case Docs => "documentation"
    case Refactor => "refactor"
    case Security => "security"
    case Performance => "performance"
    case Accessibility => "accessibility"
    case Test => "test"
    case Chore => "chore"
    case Design => "design"
  }

  /** `labelMap[suggestion.type] || 'triage'` for a raw category string. */
  function LabelFor(category: string): (r: string)
    ensures ParseIssueType(category).Some? ==> r == Label(ParseIssueType(category).value)
    ensures ParseIssueType(category).None? <==> r == FallbackLabel
  {
    match ParseIssueType(category)
    case Some(t) => Label(t)
    case None => FallbackLabel
  }

  /** Each category's own name gets its label, and distinct categories get
      distinct labels. */
  lemma LabelForCategories(t: IssueType, u: IssueType)
    ensures LabelFor(t.Name()) == Label(t)
    ensures Label(t) == Label(u) ==> t == u
  {
    ParseIssueTypeName(t);
  }

  /** The target of "Create Issue": the new-issue page of the repository, and
      the query parameters before URL encoding. */
  datatype NewIssueLink = NewIssueLink(baseUrl: string, title: string, body: string, labels: string)

  /** `handleCreateClick`: nothing without a repository; otherwise the edited
      title and body and the label of the suggestion's category. */
  function CreateIssueLink(repo: Option<RepoInfo>, session: EditBuffer.Session, suggestion: IssueSuggestion)
    : (r: Option<NewIssueLink>)
    ensures r.None? <==> repo.None?
    ensures r.Some? ==>
      && r.value.baseUrl == "https://github.com/" + repo.value.owner + "/" + repo.value.name + "/issues/new"
      && r.value.title == session.title && r.value.body == session.body
      && r.value.labels == LabelFor(suggestion.issueType)
  {
    match repo
    case None => None
    case Some(info) =>
      Some(NewIssueLink(
        "https://github.com/" + info.owner + "/" + info.name + "/issues/new",
        session.title, session.body, LabelFor(suggestion.issueType)))
  }

  /** One entry of the emoji picker. */
  datatype Emoji = Emoji(glyph: string, name: string, keywords: seq<string>)

  /** The search matches the name or any keyword, ignoring letter case. */
  predicate Matches(e: Emoji, query: string) {
    || Contains(Lower(e.name), Lower(query))
    || exists k :: 0 <= k < |e.keywords| && Contains(Lower(e.keywords[k]), Lower(query))
  }

  /** `EMOJI_LIST.filter(...)`: the matching entries, in list order. */
  function FilterEmojis(list: seq<Emoji>, query: string): (r: seq<Emoji>)
    ensures |r| <= |list|
    ensures forall e :: e in r <==> e in list && Matches(e, query)
  {
    if |list| == 0 then []
    else
      assert forall e :: e in list <==> e == list[0] || e in list[1..];
      var rest := FilterEmojis(list[1..], query);
      if Matches(list[0], query) then [list[0]] + rest else rest
  }

  /** An empty search shows the whole list. */
  lemma {:induction false} EmptySearchShowsAll(list: seq<Emoji>)
    ensures FilterEmojis(list, "") == list
  {
    if |list| > 0 {
      ContainsEmpty(Lower(list[0].name));
      EmptySearchShowsAll(list[1..]);
    }
  }

  /** The filter keeps the order of the list: filtering a concatenation is
      the concatenation of the filtered parts. */
  lemma {:induction false} FilterEmojisConcat(a: seq<Emoji>, b: seq<Emoji>, query: string)
    ensures FilterEmojis(a + b, query) == FilterEmojis(a, query) + FilterEmojis(b, query)
    decreases |a|
  {
    if |a| == 0 {
      assert a + b == b;
    } else {
      assert (a + b)[0] == a[0] && (a + b)[1..] == a[1..] + b;
      FilterEmojisConcat(a[1..], b, query);
    }
  }

  /** The card's local state: display flags and the editor session. */
  datatype Card = Card(
    expanded: bool,
    editing: bool,
    fullscreen: bool,
    preview: bool,
    session: EditBuffer.Session)

  /** A freshly mounted card. */
  function Mount(suggestion: IssueSuggestion): (c: Card)
    ensures !c.expanded && !c.editing && !c.fullscreen && !c.preview
    ensures c.session == EditBuffer.Open(suggestion)
  {
    Card(false, false, false, false, EditBuffer.Open(suggestion))
  }

  /** `handleEditToggle`: enter edit mode and expand the card. */
  function StartEditing(c: Card): (r: Card)
    ensures r.editing && r.expanded
    ensures r.session == c.session && r.fullscreen == c.fullscreen && r.preview == c.preview
  {
    c.(editing := true, expanded := true)
  }

  /** `handleSave`: leave edit mode, keeping the edited text. */
  function Save(c: Card): (r: Card)
    ensures !r.editing && !r.fullscreen && !r.preview
    ensures r.session == c.session && r.expanded == c.expanded
  {
    c.(editing := false, fullscreen := false, preview := false)
  }

  /** `handleCancel`: leave edit mode and discard the edits, going back to
      the suggestion's original title and body. */
  function Cancel(c: Card, suggestion: IssueSuggestion): (r: Card)
    ensures !r.editing && !r.fullscreen && !r.preview && r.expanded == c.expanded
    ensures r.session.title == suggestion.title && r.session.body == suggestion.body
    ensures r.session.history == [suggestion.body] && r.session.index == 0
    ensures EditBuffer.Valid(r.session) && !EditBuffer.CanUndo(r.session) && !EditBuffer.CanRedo(r.session)
  {
    c.(editing := false, fullscreen := false, preview := false,
       session := EditBuffer.Reset(c.session, suggestion))
  }

  /** The effect run when the card receives a suggestion: the session is
      reset to it and the display flags are kept. */
  function ReceiveSuggestion(c: Card, suggestion: IssueSuggestion): (r: Card)
    ensures r.session.title == suggestion.title && r.session.body == suggestion.body
    ensures r.session.history == [suggestion.body] && r.session.index == 0
    ensures r.session.pending == c.session.pending
    ensures r.(session := c.session) == c
  {
    c.(session := EditBuffer.Reset(c.session, suggestion))
  }

  /** Choosing an emoji inserts its glyph before the selection with no
      closing marker, keeps the selected text after it, and commits the new
      body as a snapshot at once. */
  function PickEmoji(s: EditBuffer.Session, e: Emoji, selection: Option<EditBuffer.Selection>)
    : (r: (EditBuffer.Session, Option<EditBuffer.Selection>))
    requires EditBuffer.Indexed(s)
    requires selection.Some? ==> selection.value.start <= selection.value.end <= |s.body|
    ensures selection.Some? ==>
      var sel := selection.value;
      && |r.0.body| == |s.body| + |e.glyph|
      && r.0.body[..sel.start] == s.body[..sel.start]
      && r.0.body[sel.start..sel.start + |e.glyph|] == e.glyph
      && r.0.body[sel.start + |e.glyph|..sel.end + |e.glyph|] == s.body[sel.start..sel.end]
      && r.0.body[sel.end + |e.glyph|..] == s.body[sel.end..]
      && EditBuffer.Valid(r.0) && !EditBuffer.CanRedo(r.0) && r.0.history[r.0.index] == r.0.body
      && EditBuffer.CanUndo(r.0) && r.0.history[r.0.index - 1] == s.history[s.index]
      && r.0.index == EditBuffer.CommitIndex(s.index)
    ensures selection.None? ==> r == (s, None)
  {
    EditBuffer.Insert(s, e.glyph, "", selection)
  }
}

=== FILE: strings.dfy ===
/** The JavaScript string primitives the core relies on, as pure functions over
    `seq<char>`: `includes`, `trim`, `toLowerCase`, `split`, `filter(Boolean)`,
    literal-pattern `replace(/p/g, '')` and `replace('/', '')`, plus the first
    and last position of a character, from which the model computes the
    greedy match of `\[[\s\S]*\]` and the first-occurrence `replace`. */
module Strings {
  import opened Wrappers

  /** `pat` occurs in `s` starting at index `i`. */
  predicate OccursAt(s: string, pat: string, i: nat) {
    i + |pat| <= |s| && s[i..i + |pat|] == pat
  }

  /** `s.includes(pat)` */
  predicate Contains(s: string, pat: string): (r: bool)
    ensures r ==> |pat| <= |s|
    ensures r && |pat| > 0 ==> pat[0] in s
  {
    exists i :: 0 <= i <= |s| && OccursAt(s, pat, i)
  }

  /** Every string contains the empty string. */
  lemma ContainsEmpty(s: string)
    ensures Contains(s, "")
  {
    assert OccursAt(s, "", 0);
  }

  /** A pattern whose first character never appears in `s` does not occur in `s`. */
  lemma MissingFirstChar(s: string, pat: string)
    requires |pat| > 0 && pat[0] !in s
    ensures !Contains(s, pat)
  {
    forall i | 0 <= i <= |s|
      ensures !OccursAt(s, pat, i)
    {
      if i + |pat| <= |s| {
        assert s[i..i + |pat|][0] == s[i];
      }
    }
  }

  /** The first position of `c` in `s`, or `None` when it does not occur. */
  function IndexOf(s: string, c: char): (r: Option<nat>)
    ensures r.None? <==> c !in s
    ensures r.Some? ==> r.value < |s| && s[r.value] == c
    ensures r.Some? ==> forall k :: 0 <= k < r.value ==> s[k] != c
  {
    if |s| == 0 then None
    else if s[0] == c then Some(0)
    else
      match IndexOf(s[1..], c)
      case None => None
      case Some(k) => Some(k + 1)
  }

  /** The last position of `c` in `s`, or `None` when it does not occur. */
  function LastIndexOf(s: string, c: char): (r: Option<nat>)
    ensures r.None? <==> c !in s
    ensures r.Some? ==> r.value < |s| && s[r.value] == c
    ensures r.Some? ==> forall k :: r.value < k < |s| ==> s[k] != c
  {
    if |s| == 0 then None
    else if s[|s| - 1] == c then Some(|s| - 1)
    else
      var r := LastIndexOf(s[..|s| - 1], c);
      assert s == s[..|s| - 1] + [s[|s| - 1]];
      r
  }

  /** The characters `String.prototype.trim` removes: ECMAScript WhiteSpace
      (tab, vertical tab, form feed, space, no-break space, byte order mark and
      the Unicode space separators) and LineTerminator. */
  predicate IsWhitespace(c: char) {
    || c == '\t' || c == '\n' || c == '\U{000B}' || c == '\U{000C}' || c == '\r' || c == ' '
    || c == '\U{00A0}' || c == '\U{1680}' || ('\U{2000}' <= c <= '\U{200A}')
    || c == '\U{2028}' || c == '\U{2029}' || c == '\U{202F}' || c == '\U{205F}'
    || c == '\U{3000}' || c == '\U{FEFF}'
  }

  predicate AllWhitespace(s: string) {
    forall i :: 0 <= i < |s| ==> IsWhitespace(s[i])
  }

  /** Drops the leading whitespace: the result is the longest suffix of `s`
      that does not start with whitespace. */
  function TrimStart(s: string): (r: string)
    ensures |r| <= |s| && r == s[|s| - |r|..]
    ensures AllWhitespace(s[..|s| - |r|])
    ensures |r| > 0 ==> !IsWhitespace(r[0])
  {
    if |s| > 0 && IsWhitespace(s[0]) then
      var r := TrimStart(s[1..]);
      var k := |s| - |r|;
      assert s[1..][k - 1..] == s[k..];
      assert s[..k] == [s[0]] + s[1..][..k - 1];
      r
    else s
  }

  /** Drops the trailing whitespace: the result is the longest prefix of `s`
      that does not end with whitespace. */
  function TrimEnd(s: string): (r: string)
    ensures |r| <= |s| && r == s[..|r|]
    ensures AllWhitespace(s[|r|..])
    ensures |r| > 0 ==> !IsWhitespace(r[|r| - 1])
  {
    if |s| > 0 && IsWhitespace(s[|s| - 1]) then
      var r := TrimEnd(s[..|s| - 1]);
      assert s[|r|..] == s[..|s| - 1][|r|..] + [s[|s| - 1]];
      r
    else s
  }

  /** `s` is `r` surrounded by whitespace only, with `lead` characters before it. */
  predicate StripsTo(s: string, lead: nat, r: string) {
    && lead + |r| <= |s|
    && s[lead..lead + |r|] == r
    && AllWhitespace(s[..lead])
    && AllWhitespace(s[lead + |r|..])
  }

  /** Whitespace stripped from the front and then from the back of what
      remains is whitespace stripped from both ends. */
  lemma StripsInTwoSteps(s: string, front: string, r: string)
    requires |front| <= |s| && front == s[|s| - |front|..] && AllWhitespace(s[..|s| - |front|])
    requires |r| <= |front| && r == front[..|r|] && AllWhitespace(front[|r|..])
    ensures StripsTo(s, |s| - |front|, r)
  {
    var lead := |s| - |front|;
    assert s[lead..lead + |r|] == r;
    assert s[lead + |r|..] == front[|r|..];
  }

  /** Trimming the front and then the back strips whitespace only. */
  lemma TrimsStrip(s: string)
    ensures StripsTo(s, |s| - |TrimStart(s)|, TrimEnd(TrimStart(s)))
  {
    StripsInTwoSteps(s, TrimStart(s), TrimEnd(TrimStart(s)));
  }

  /** `s.trim()` */
  function Trim(s: string): (r: string)
    ensures exists lead: nat :: StripsTo(s, lead, r)
    ensures |r| > 0 ==> !IsWhitespace(r[0]) && !IsWhitespace(r[|r| - 1])
  {
    TrimsStrip(s);
    var lead: nat := |s| - |TrimStart(s)|;
    var r := TrimEnd(TrimStart(s));
    assert StripsTo(s, lead, r);
    r
  }

  /** Text that neither starts nor ends with whitespace is its own trim. */
  lemma TrimKeepsTrimmed(s: string)
    requires |s| > 0 && !IsWhitespace(s[0]) && !IsWhitespace(s[|s| - 1])
    ensures Trim(s) == s
  {
    assert TrimStart(s) == s;
    assert TrimEnd(s) == s;
  }

  /** `toLowerCase` on one character, for the ASCII letters. */
  function LowerChar(c: char): (r: char)
    ensures !('A' <= r <= 'Z')
    ensures 'A' <= c <= 'Z' ==> r as int == c as int + 32 && 'a' <= r <= 'z'
    ensures !('A' <= c <= 'Z') ==> r == c
  {
    if 'A' <= c <= 'Z' then (c as int + 32) as char else c
  }

  /** `s.toLowerCase()`, restricted to the ASCII letters. */
  function Lower(s: string): (r: string)
    ensures |r| == |s|
    ensures forall i :: 0 <= i < |s| ==> r[i] == LowerChar(s[i])
    ensures forall i :: 0 <= i < |r| ==> !('A' <= r[i] <= 'Z')
  {
    seq(|s|, i requires 0 <= i < |s| => LowerChar(s[i]))
  }

  /** `s.split(sep)` for a one-character separator: the pieces between
      separators, in order, empty pieces included. */
  function Split(s: string, sep: char): (parts: seq<string>)
    ensures |parts| >= 1
    ensures forall k :: 0 <= k < |parts| ==> sep !in parts[k]
    decreases |s|
  {
    if |s| == 0 then [""]
    else
      var rest := Split(s[1..], sep);
      if s[0] == sep then [""] + rest
      else [[s[0]] + rest[0]] + rest[1..]
  }

  /** `parts.join(sep)`, the inverse of `Split`. */
  function Join(parts: seq<string>, sep: char): string
    requires |parts| >= 1
  {
    if |parts| == 1 then parts[0] else parts[0] + [sep] + Join(parts[1..], sep)
  }

  /** A string without the separator is a single piece. */
  lemma {:induction false} SplitWithoutSep(s: string, sep: char)
    requires sep !in s
    ensures Split(s, sep) == [s]
    decreases |s|
  {
    if |s| > 0 {
      SplitWithoutSep(s[1..], sep);
      assert [s[0]] + s[1..] == s;
    }
  }

  /** Splitting at a separator splits the two sides independently. */
  lemma {:induction false} SplitConcat(a: string, b: string, sep: char)
    ensures Split(a + [sep] + b, sep) == Split(a, sep) + Split(b, sep)
    decreases |a|
  {
    var s := a + [sep] + b;
    if |a| == 0 {
      assert s[0] == sep && s[1..] == b;
    } else {
      assert s[0] == a[0] && s[1..] == a[1..] + [sep] + b;
      SplitConcat(a[1..], b, sep);
    }
  }

  /** Joining the pieces of a split gives back the original string. */
  lemma {:induction false} JoinSplit(s: string, sep: char)
    ensures Join(Split(s, sep), sep) == s
    decreases |s|
  {
    if |s| > 0 {
      var rest := Split(s[1..], sep);
      JoinSplit(s[1..], sep);
      if s[0] == sep {
        assert ([""] + rest)[1..] == rest;
      } else {
        var parts := [[s[0]] + rest[0]] + rest[1..];
        assert parts[1..] == rest[1..];
        if |rest| > 1 {
          assert Join(rest, sep) == rest[0] + [sep] + Join(rest[1..], sep);
        }
        assert [s[0]] + s[1..] == s;
      }
    }
  }

  /** Splitting a join of separator-free pieces gives back the pieces. */
  lemma {:induction false} SplitJoin(parts: seq<string>, sep: char)
    requires |parts| >= 1
    requires forall k :: 0 <= k < |parts| ==> sep !in parts[k]
    ensures Split(Join(parts, sep), sep) == parts
    decreases |parts|
  {
    SplitWithoutSep(parts[0], sep);
    if |parts| > 1 {
      SplitJoin(parts[1..], sep);
      SplitConcat(parts[0], Join(parts[1..], sep), sep);
      assert [parts[0]] + parts[1..] == parts;
    }
  }

  /** `parts.filter(Boolean)`: the non-empty pieces, in order. */
  function NonEmpty(parts: seq<string>): (r: seq<string>)
    ensures |r| <= |parts|
    ensures forall k :: 0 <= k < |r| ==> r[k] != ""
    ensures forall x :: x in r <==> x in parts && x != ""
  {
    if |parts| == 0 then []
    else if parts[0] == "" then
      assert forall x :: x in parts <==> x == parts[0] || x in parts[1..];
      NonEmpty(parts[1..])
    else
      assert forall x :: x in parts <==> x == parts[0] || x in parts[1..];
      [parts[0]] + NonEmpty(parts[1..])
  }

  /** Filtering distributes over concatenation: order is kept. */
  lemma {:induction false} NonEmptyConcat(a: seq<string>, b: seq<string>)
    ensures NonEmpty(a + b) == NonEmpty(a) + NonEmpty(b)
    decreases |a|
  {
    if |a| > 0 {
      assert (a + b)[0] == a[0] && (a + b)[1..] == a[1..] + b;
      NonEmptyConcat(a[1..], b);
      if a[0] != "" {
        assert NonEmpty(a + b) == [a[0]] + NonEmpty(a[1..] + b);
        assert [a[0]] + (NonEmpty(a[1..]) + NonEmpty(b)) == ([a[0]] + NonEmpty(a[1..])) + NonEmpty(b);
      }
    } else {
      assert a + b == b;
    }
  }

  /** `s.replace(/pat/g, '')` for a literal pattern: the leftmost occurrence is
      removed, scanning resumes after it, and the text between occurrences is kept. */
  function RemoveAll(s: string, pat: string): (r: string)
    requires |pat| > 0
    ensures |r| <= |s|
    decreases |s|
  {
    if |s| < |pat| then s
    else if s[..|pat|] == pat then RemoveAll(s[|pat|..], pat)
    else [s[0]] + RemoveAll(s[1..], pat)
  }

  /** A string with no occurrence of the pattern is left as it is. */
  lemma {:induction false} RemoveAllAbsent(s: string, pat: string)
    requires |pat| > 0 && !Contains(s, pat)
    ensures RemoveAll(s, pat) == s
    decreases |s|
  {
    if |s| >= |pat| {
      assert !OccursAt(s, pat, 0);
      forall i | 0 <= i <= |s[1..]| && OccursAt(s[1..], pat, i)
        ensures false
      {
        assert s[1..][i..i + |pat|] == s[i + 1..i + 1 + |pat|];
        assert OccursAt(s, pat, i + 1);
      }
      RemoveAllAbsent(s[1..], pat);
      assert [s[0]] + s[1..] == s;
    }
  }

  /** Text that cannot start an occurrence is kept in front: when the
      pattern's first character does not appear in `a`, removal leaves `a`
      and works on the rest. */
  lemma {:induction false} RemoveAllKeepsPlainPrefix(a: string, s: string, pat: string)
    requires |pat| > 0 && pat[0] !in a
    ensures RemoveAll(a + s, pat) == a + RemoveAll(s, pat)
    decreases |a|
  {
    if |a| > 0 {
      var t := a + s;
      assert t[0] == a[0] && t[1..] == a[1..] + s;
      if |t| >= |pat| {
        assert t[..|pat|][0] != pat[0];
      }
      RemoveAllKeepsPlainPrefix(a[1..], s, pat);
      assert a + RemoveAll(s, pat) == [a[0]] + (a[1..] + RemoveAll(s, pat));
    } else {
      assert a + s == s;
    }
  }

  /** An occurrence after plain text is cut out and the text around it is
      kept. */
  lemma RemoveAllAroundOccurrence(a: string, b: string, pat: string)
    requires |pat| > 0 && pat[0] !in a
    ensures RemoveAll(a + pat + b, pat) == a + RemoveAll(b, pat)
  {
    assert a + pat + b == a + (pat + b);
    RemoveAllKeepsPlainPrefix(a, pat + b, pat);
    assert (pat + b)[..|pat|] == pat && (pat + b)[|pat|..] == b;
  }

  /** The Markdown code-fence marker. */
  const Fence: string := "```"

  /** Removing fences from a string that does not start with a backtick keeps
      its first character in front. */
  lemma KeepsFirstNonBacktick(s: string)
    requires |s| > 0 && s[0] != '`'
    ensures |RemoveAll(s, Fence)| > 0 && RemoveAll(s, Fence)[0] == s[0]
  {
    if |s| >= 3 {
      assert s[..3][0] == s[0];
    }
  }

  /** When `s` does not start with a fence, the result of removing fences
      from it does not start with one either. */
  lemma NoFenceInFront(s: string)
    requires |s| >= 3 && s[..3] != Fence
    ensures !OccursAt(RemoveAll(s, Fence), Fence, 0)
  {
    var r := RemoveAll(s, Fence);
    var t := s[1..];
    var rest := RemoveAll(t, Fence);
    assert r == [s[0]] + rest;
    if |r| >= 3 {
      if s[0] != '`' {
        assert r[..3][0] != Fence[0];
      } else if s[1] != '`' {
        KeepsFirstNonBacktick(t);
        assert r[..3][1] != Fence[1];
      } else {
        assert s[..3][2] == s[2] != '`';
        if |t| >= 3 {
          assert t[..3][1] != Fence[1];
          assert rest == [t[0]] + RemoveAll(t[1..], Fence);
          KeepsFirstNonBacktick(t[1..]);
        }
        assert rest[1] == s[2];
        assert r[..3][2] != Fence[2];
      }
    }
  }

  /** A single global removal of the fence marker leaves no fence behind, even
      where the removal brings backticks from both sides together. */
  lemma {:induction false} RemoveFencesLeavesNone(s: string)
    ensures !Contains(RemoveAll(s, Fence), Fence)
    decreases |s|
  {
    var r := RemoveAll(s, Fence);
    if |s| < 3 {
      forall i | 0 <= i <= |r| ensures !OccursAt(r, Fence, i) {
      }
    } else if s[..3] == Fence {
      RemoveFencesLeavesNone(s[3..]);
    } else {
      var rest := RemoveAll(s[1..], Fence);
      RemoveFencesLeavesNone(s[1..]);
      assert r == [s[0]] + rest;
      forall i | 0 <= i <= |r| ensures !OccursAt(r, Fence, i) {
        if i == 0 {
          NoFenceInFront(s);
        } else if i + 3 <= |r| {
          assert r[i..i + 3] == rest[i - 1..i - 1 + 3];
          assert !OccursAt(rest, Fence, i - 1);
        }
      }
    }
  }

  /** `s.replace('/', '')`: only the first separator is removed. */
  function RemoveFirst(s: string, c: char): (r: string)
    ensures c !in s ==> r == s
    ensures c in s ==> |r| == |s| - 1
    ensures c in s ==>
      exists i :: 0 <= i < |s| && s[i] == c && c !in s[..i] && r == s[..i] + s[i + 1..]
  {
    match IndexOf(s, c)
    case None => s
    case Some(i) => s[..i] + s[i + 1..]
  }
}

=== FILE: types.dfy ===
/** The records shared by the service, the issue card and the application shell. */
module Types {
  import opened Wrappers

  /** The ten issue categories, with the string each one is written as. */
  datatype IssueType =
    | Bug | Feature | Refactor | Docs | Security
    | Performance | Accessibility | Test | Chore | Design
  {
    function Name(): string {
      match this
      case Bug => "Bug"
      case Feature => "Feature"
      case Refactor => "Refactor"
      case Docs => "Documentation"
      case Security => "Security"
      case Performance => "Performance"
      case Accessibility => "Accessibility"
      case Test => "Testing"
      case Chore => "Chore"
      case Design => "Design"
    }
  }

  /** The category a raw string names, if it names one. */
  function ParseIssueType(s: string): (r: Option<IssueType>)
    ensures r.Some? ==> r.value.Name() == s
  {
    if s == "Bug" then Some(Bug)
    else if s == "Feature" then Some(Feature)
    else if s == "Refactor" then Some(Refactor)
    else if s == "Documentation" then Some(Docs)
    else if s == "Security" then Some(Security)
    else if s == "Performance" then Some(Performance)
    else if s == "Accessibility" then Some(Accessibility)
    else if s == "Testing" then Some(Test)
    else if s == "Chore" then Some(Chore)
    else if s == "Design" then Some(Design)
    else None
  }

  /** Every category is recognised from its own name. */
  lemma ParseIssueTypeName(t: IssueType)
    ensures ParseIssueType(t.Name()) == Some(t)
  {
  }

  /** One suggested issue as the model returns it. The category is kept as the
      raw string from the response: parsed JSON is not checked against the
      enumeration, so any string can arrive here. */
  datatype IssueSuggestion = IssueSuggestion(
    title: string,
    body: string,
    issueType: string,
    reasoning: string)

  datatype RepoInfo = RepoInfo(owner: string, name: string, url: string)

  /** The request state the generator view renders. */
  datatype GenerateState = GenerateState(
    isLoading: bool,
    error: Option<string>,
    data: Option<seq<IssueSuggestion>>)

  /** One stored generation run. */
  datatype HistoryItem = HistoryItem(
    id: string,
    timestamp: int,
    repoInfo: RepoInfo,
    suggestions: seq<IssueSuggestion>,
    goals: Option<string>)
}

=== FILE: wrappers.dfy ===
/** Values that may be absent, and outcomes that may carry an error message.
    `Option` stands for the source's `T | null` and `Result` for a promise that
    resolves to a value or rejects with an `Error`. */
module Wrappers {

  datatype Option<+T> = None | Some(value: T)

  datatype Result<+T, +E> = Success(value: T) | Failure(error: E)
}
